=== FILE: README.md ===
# Pro-Ject collaboration app: a verified model of its rules

Pro-Ject is a project-collaboration web application. Users register, create projects, add
team members, assign tasks, chat per project, upload files and receive notifications. A
daily job reminds teams of deadlines. The backend is a set of Express handlers over a
MongoDB store. The frontend is React, and several of its pages compute lists and counters
from what the server returns.

This Dafny project models:

- **The store** (`store.dfy`). A class `Db` holds one map per collection: users, projects,
  tasks, chats, notifications, files and contact messages. It also holds the upload
  directory (`blobs`), the queue of pending delayed deletions (`sweeps`) and the id counter.
  `Model()` snapshots the store as a `State` value.
- **Every backend handler in the core** as a method on that store. Each method states the
  answer code and the whole new state.
  - Projects, tasks and chats.
  - Notifications, including the deferred deletion.
  - The upload middleware and the file handlers.
  - Registration, login and the profile update.
  - Contact messages.
  - The deadline reminder job.
- **The frontend's pure helpers** as functions over sequences.
  - The to-do list.
  - The task board's columns, labels and buttons.
  - The dashboard's two counting charts.
  - The projects page's filters and form checks.
  - The profile form's skills field.

Each of these is related by lemmas to the server behaviour it depends on.

Ids are natural numbers handed out by one counter, so insertion order is id order. A
`findOne` is the first match in that order, and a `find` lists the matches in it.
Timestamps are integer milliseconds passed in by the caller.

The model follows the code where it falls short of the rules the application is meant to
keep:

- A task's assignee is meant to be on the project's team. `createTask` checks only that the
  assignee exists (`CreateTask`).
- The sender of a chat message is meant not to be notified of it. The client sends the
  sender's display name, and the server compares it with the text of each member's id. A
  name is never the text of an id unless it is a string of digits (in the model) or of 24
  hexadecimal characters (in the application), so the sender is normally notified too
  (`NameSenderExcludesNobody`).
- Missing required fields are meant to be answered with 400. A field the schema requires
  but the handler does not check (a project's name, a task's title, a chat message's text)
  fails in the store, and the handler answers 500 (`CreateProject`, `CreateTask`,
  `SendMessage`).
- The deadline job is meant to remind each project at most once a day. It creates its
  reminders afresh on every run (`SendDeadlineReminders`).

## Model

| member | source | states |
|---|---|---|
| Store.ParseStatus | backend/models/Task.js:12 | a status text is accepted exactly when it is one of "pending", "in progress", "completed" |
| Store.StatusRoundTrip | backend/models/Task.js:12 | the enum's texts and the statuses correspond one to one |
| Store.FindFirst | backend/controllers/projectController.js:42-46 | `findOne`: the answer matches and no smaller id matches; no answer means no id in range matches |
| Store.Matching | backend/controllers/projectController.js:28 | `find`: exactly the ids in range whose record matches, in ascending order |
| Store.Populated | backend/controllers/projectController.js:28 | `populate`: the team entries whose user exists, and every such entry |
| Store.NotesFor | backend/controllers/fileController.js:33-44 | one note per recipient, in recipient order, all with the same text |
| Store.Db.Notify | backend/controllers/notificationController.js:6 | `Notification.create`: one new unread notification under a fresh id, nothing else changes |
| Store.Db.NotifyAll | backend/controllers/fileController.js:33-44 | a batch of notifications stored one after the other under consecutive fresh ids |
| Store.Db.CreateUser | backend/controllers/authController.js:25 | one new user under a fresh id, only the users change |
| Store.Db.CreateMessage | backend/controllers/messageController.js:11-17 | one new contact message under a fresh id, only the messages change |
| Store.Db.CreateFile | backend/controllers/fileController.js:21-26 | one new file record under a fresh id, only the files change |
| ProjectController.CreateProjectCode | backend/controllers/projectController.js:7-19 | the answer is 400 exactly without a deadline and 201 exactly with a deadline and a non-empty name |
| ProjectController.CreateProject | backend/controllers/projectController.js:7-19 | answers `CreateProjectCode`; 400 without a deadline and no change; 500 for an empty name; otherwise the caller owns the new project and is its only member, and owner-in-team is preserved |
| ProjectController.GetProjects | backend/controllers/projectController.js:22-33 | 401 without a caller; otherwise exactly the projects whose team holds the caller, in insertion order |
| ProjectController.AddTeamMember | backend/controllers/projectController.js:38-78 | 404 with no change for an unknown project or user name; 400 with no change for a user already on the team; otherwise the user is appended to the team and notified once, and owner-in-team is preserved |
| ProjectController.DeleteProject | backend/controllers/projectController.js:83-101 | the answer is 200 exactly when the caller owns the stored project (`MayDeleteProject`); 404 for an unknown id, 403 for anyone but the owner, both without change; otherwise only that project is removed |
| ProjectController.UpdateProjectDetails | backend/controllers/projectController.js:120-145 | 404 and 403 as for deletion; otherwise name, description and deadline change only where a value is given, and owner and team stay |
| Text.ParseNatToString | backend/controllers/taskController.js:13 | reading back the decimal text of an id gives that id |
| Store.CastId | backend/controllers/taskController.js:13 | the cast of a request's text to an id: the empty text and any non-id text fail, an id's own text casts back to that id (`CastIdText`) |
| Store.CastIdText | backend/controllers/taskController.js:13 | an id's text always casts back to that id |
| TaskController.CreateTaskCode | backend/controllers/taskController.js:9-39 | for the assignee as sent: 500 when the text is not an id, 404 exactly when it is an id with no user, 201 exactly when it names a user and the title is not empty |
| TaskController.CreateTask | backend/controllers/taskController.js:9-40 | answers `CreateTaskCode`; 500 with no change for an assignee text that is not an id; 404 with no change for an unknown assignee; 500 for an empty title; otherwise a pending task assigned to the cast id and created by the caller, and one notification to the assignee |
| TaskController.UpdateTaskStatus | backend/controllers/taskController.js:55-87 | 404 for an unknown task and 403 for anyone but the assignee, both without change; a status outside the enum is refused; otherwise only the status changes and the creator is notified if they still exist |
| TaskController.DeleteTask | backend/controllers/taskController.js:90-119 | the answer is 200 exactly when the task and its project are stored and the caller owns the project (`MayDeleteTask`); 404 for an unknown task; 500 when its project is gone; 403 for anyone but the project's owner; otherwise the assignee is notified if they exist and only that task is removed |
| TaskController.ExtractWithoutMatch | backend/controllers/taskController.js:144-145 | without a fenced block the reply is kept whole |
| TaskController.ExtractLeftmostMatch | backend/controllers/taskController.js:144-145 | with a fenced block the result is the trimmed text of the leftmost match, up to the first closing fence |
| TaskController.SuggestTasks | backend/controllers/taskController.js:122-155 | 400 exactly when the title or the description is missing; otherwise the reply's JSON block |
| ChatController.GetOrCreateChat | backend/controllers/chatController.js:6-21 | the existing chat unchanged, or a new empty chat for the project |
| ChatController.WithChat | backend/controllers/chatController.js:10-14 | the chats gain the project's chat if it was missing and keep every other chat |
| ChatController.WithChatIdempotent | backend/controllers/chatController.js:10-14 | asking twice leaves exactly the chat the first call made |
| ChatController.GetMessages | backend/controllers/chatController.js:82-97 | the chat's messages in sending order, or none when no chat exists |
| ChatController.Appended | backend/controllers/chatController.js:27-37 | the message is last in the project's chat, earlier messages and other chats unchanged |
| ChatController.RecipientsSpec | backend/controllers/chatController.js:46-48 | a user is a recipient exactly when they are the owner or on the team and their id text differs from the sender field |
| ChatController.NameSenderExcludesNobody | backend/controllers/chatController.js:46-48 | a sender field that is a name drops nobody: the recipients are the owner followed by the whole team |
| ChatController.FreshSpec | backend/controllers/chatController.js:51-72 | a recipient is served exactly when no unread copy existed before, and no one is served twice |
| ChatController.UnreadAfterRelay | backend/controllers/chatController.js:51-72 | after the fan-out every recipient has an unread copy of the notice |
| ChatController.FindUnread | backend/controllers/chatController.js:54-58 | finds a stored unread notification with that user and message exactly when one exists |
| ChatController.Relay | backend/controllers/chatController.js:51-72 | the loop creates exactly the copies for the fresh recipients, in order, under consecutive ids |
| ChatController.SendMessage | backend/controllers/chatController.js:23-79 | 500 for a message missing sender or text, with the chat still created; otherwise the message is appended and kept even on a 404 for a missing project or a 500 for a missing owner; on success exactly the fresh recipients are notified, once each |
| NotificationController.CreateNotification | backend/controllers/notificationController.js:3-15 | 201 and exactly one new unread notification for the user |
| NotificationController.InsertKeepsDescending | backend/controllers/notificationController.js:20-21 | inserting an entry into a newest-first list keeps it newest first |
| NotificationController.SortByTime | backend/controllers/notificationController.js:20-21 | the same entries, newest first |
| NotificationController.Latest | backend/controllers/notificationController.js:20-22 | at most 50 entries, newest first, each drawn from the input no more often than it occurs there; an entry is cut only from a full page and is no newer than any kept |
| NotificationController.PageOfOwn | backend/controllers/notificationController.js:20-22 | the page built from the caller's ids holds each of the caller's notifications at most once, with its own time, and leaves one out only when full of ones at least as new |
| NotificationController.GetNotifications | backend/controllers/notificationController.js:18-28 | only the caller's notifications with their times, each at most once, newest first, at most 50; one is missing only when 50 at least as new are shown |
| NotificationController.MarkRead | backend/controllers/notificationController.js:33-37 | only that notification's read flag is set |
| NotificationController.MarkReadIdempotent | backend/controllers/notificationController.js:33-37 | marking read twice changes nothing more |
| NotificationController.MarkAsRead | backend/controllers/notificationController.js:31-53 | 404 with no change for an unknown id; otherwise the flag is set, with no owner check, and a deletion is scheduled |
| NotificationController.Swept | backend/controllers/notificationController.js:42-47 | the deferred step removes the notification if present and keeps every other |
| NotificationController.SweptTwice | backend/controllers/notificationController.js:42-47 | a second deletion of the same id changes nothing |
| NotificationController.MarkThenSweep | backend/controllers/notificationController.js:33-47 | marking read and then sweeping removes exactly that notification |
| NotificationController.RunSweep | backend/controllers/notificationController.js:42-47 | the oldest scheduled deletion fires and removes its notification if still stored |
| DeadlineReminder.WindowStart | backend/utils/deadlineReminder.js:10-12 | the next local midnight: after now, at most a day later, on a day boundary |
| DeadlineReminder.ReminderCount | backend/utils/deadlineReminder.js:19-26 | exactly one reminder per pair of a listed project and an existing member of its team |
| DeadlineReminder.ReminderRecipients | backend/utils/deadlineReminder.js:19-26 | every reminder goes to a member of a listed project's team; an owner not on the team gets none |
| DeadlineReminder.ReminderComplete | backend/utils/deadlineReminder.js:19-26 | every existing team member of every listed project gets that project's reminder |
| DeadlineReminder.ReminderNotesConcat | backend/utils/deadlineReminder.js:19-20 | reminders come in project order, then team order |
| DeadlineReminder.RemindTeams | backend/utils/deadlineReminder.js:19-33 | the nested loop stores exactly the reminders for the listed projects, in order, under consecutive ids |
| DeadlineReminder.SendDeadlineReminders | backend/utils/deadlineReminder.js:9-33 | a project is selected exactly when its deadline lies in [T, T + 86400000), T the next local midnight; exactly those projects' reminders are created |
| UploadMiddleware.AnyContained | backend/middleware/uploadMiddleware.js:23 | true exactly when one of the alternatives occurs somewhere in the text |
| UploadMiddleware.LastDot | backend/middleware/uploadMiddleware.js:24 | the position of the last dot, or none when there is no dot |
| UploadMiddleware.ExtName | backend/middleware/uploadMiddleware.js:24 | the suffix from the last dot, which holds no other dot; "" without a dot |
| UploadMiddleware.FileFilter | backend/middleware/uploadMiddleware.js:22-32 | accepted exactly when the lower-cased extension and the MIME type each contain an allowed alternative |
| UploadMiddleware.AcceptedHasExtension | backend/middleware/uploadMiddleware.js:22-32 | an accepted name has a dot and an extension of at least four characters |
| UploadMiddleware.TextPlainRejected | backend/middleware/uploadMiddleware.js:25-31 | a "text/plain" upload is refused whatever its name |
| UploadMiddleware.UnanchoredExtension | backend/middleware/uploadMiddleware.js:23-24 | an extension that merely contains an alternative, such as ".jpgx", is accepted |
| UploadMiddleware.StoredNameParts | backend/middleware/uploadMiddleware.js:16-18 | the stored name is the time's digits, then "-", then the original name, and both can be read back |
| UploadMiddleware.Admit | backend/middleware/uploadMiddleware.js:34-38 | a file is admitted exactly when the filter accepts it and it is at most 5 MiB, under its stored name |
| UploadMiddleware.Receive | backend/middleware/uploadMiddleware.js:12-38 | an admitted file is written under its stored name; otherwise an error and nothing is written |
| FileController.UploadRecipients | backend/controllers/fileController.js:29-31 | the uploader is never a recipient; everyone else is listed as often as in owner-then-team |
| FileController.OwnerOnTeamToldTwice | backend/controllers/fileController.js:29-44 | an owner also on the team, who is not the uploader, is notified twice |
| FileController.UploadFile | backend/controllers/fileController.js:9-51 | 404 with no change for a missing project; otherwise one record of the original name, stored name, project and uploader, and one notice per recipient |
| FileController.UploadKeepsFilesOnDisk | backend/controllers/fileController.js:21-26 | an upload under a new stored name keeps every record's copy on disk |
| FileController.DeleteFile | backend/controllers/fileController.js:79-102 | 404 with no change for an unknown id; otherwise the record and its stored copy go, and nothing else changes |
| FileController.DeleteKeepsFilesOnDisk | backend/controllers/fileController.js:79-102 | deleting keeps every other record's copy on disk |
| FileController.UploadThenDelete | backend/controllers/fileController.js:9-102 | deleting a new upload restores the records and the disk |
| AuthController.UserByEmail | backend/controllers/authController.js:19 | finds a user with the email exactly when one exists, and with unique emails it is that user |
| AuthController.RegisterUser | backend/controllers/authController.js:11-50 | 400 with no change when a field is missing or the email is taken; otherwise exactly one new user, an answer without the password, and emails stay unique |
| AuthController.LoginUser | backend/controllers/authController.js:55-94 | 400 exactly when a field is missing; 401 for an unknown email or a wrong password; 200 only with a matching user's account |
| AuthController.LoginSucceedsIffMatch | backend/controllers/authController.js:63-73 | with unique emails, login succeeds exactly when the password matches that user's digest |
| AuthController.OrElse | backend/controllers/authController.js:135-137 | a missing or empty value keeps the current one |
| AuthController.ApplyProfile | backend/controllers/authController.js:133-138 | name, picture and bio change only for a non-empty value, skills whenever given; email, password, role and team stay |
| AuthController.ApplyProfileIdempotent | backend/controllers/authController.js:133-138 | sending the same form twice changes nothing the second time |
| AuthController.EmptyProfileKeepsUser | backend/controllers/authController.js:135-138 | an empty name, picture or bio keeps that field whatever the other values are, and empty texts without skills change nothing; an empty skills list does clear the skills |
| AuthController.Profile | backend/controllers/authController.js:127-144 | 404 for an unknown caller; otherwise only the caller's document changes |
| MessageController.SendContactMessage | backend/controllers/messageController.js:3-22 | 400 with no change when subject or message is missing; otherwise one new entry from the caller |
| MessageController.GetContactMessages | backend/controllers/messageController.js:24-31 | every stored entry, in sending order |
| MessageController.DeleteContactMessage | backend/controllers/messageController.js:33-45 | 404 with no change for an unknown id; otherwise only that entry goes |
| MessageController.SendThenDelete | backend/controllers/messageController.js:11-40 | deleting the entry just sent restores the entries |
| TodoList.AddTask | frontend/src/components/TodoList.jsx:26-39 | blank input changes nothing; otherwise the input is cleared and edit mode ends, and the untrimmed text is appended as an open item or becomes the edited item's text |
| TodoList.AddTaskChangesIffNotBlank | frontend/src/components/TodoList.jsx:27 | adding changes the state exactly when the input is not blank |
| TodoList.EditTask | frontend/src/components/TodoList.jsx:41-44 | the item is remembered and its text put in the input; the list stays |
| TodoList.EditThenSave | frontend/src/components/TodoList.jsx:28-38 | editing then saving changes only that item's text; ids, flags and order stay |
| TodoList.DeleteTask | frontend/src/components/TodoList.jsx:46-48 | every item with the id goes and every other item stays |
| TodoList.DeleteKeepsOrder | frontend/src/components/TodoList.jsx:46-48 | deletion keeps the remaining items in order |
| TodoList.DeleteAbsent | frontend/src/components/TodoList.jsx:46-48 | deleting an id no item has changes nothing |
| TodoList.Toggle | frontend/src/components/TodoList.jsx:50-56 | only items with the id have their flag flipped |
| TodoList.ToggleTwice | frontend/src/components/TodoList.jsx:50-56 | toggling twice gives back the list |
| TodoList.Visible | frontend/src/components/TodoList.jsx:58-62 | "completed" shows exactly the completed items and "pending" exactly the open ones |
| TodoList.VisiblePartition | frontend/src/components/TodoList.jsx:58-62 | the two views split the list; any other filter shows all of it |
| TodoList.VisibleKeepsOrder | frontend/src/components/TodoList.jsx:58-62 | every view keeps the list's order |
| TaskManager.CreateRequest | frontend/src/components/TaskManager.jsx:42-53 | nothing is sent exactly when title or description is empty; otherwise the form plus the project id |
| TaskManager.RequestHasTitle | frontend/src/components/TaskManager.jsx:43-44 | a request the form sends has a title; with the assignee selector (lines 181-191) on its placeholder, an empty text, createTask answers 500, and with a member's id text it answers 201 when that user exists and 404 otherwise |
| TaskManager.UpdateLocal | frontend/src/components/TaskManager.jsx:86-88 | only the matching card's status changes |
| TaskManager.UpdateLocalIdempotent | frontend/src/components/TaskManager.jsx:86-88 | repeating the update changes nothing more |
| TaskManager.RemoveLocal | frontend/src/components/TaskManager.jsx:115 | a card is kept exactly when it is not the deleted one |
| TaskManager.RemoveLocalKeepsOrder | frontend/src/components/TaskManager.jsx:115 | the others keep their order |
| TaskManager.NewTasks | frontend/src/components/TaskManager.jsx:156 | exactly the cards whose status is not "completed" |
| TaskManager.CompletedTasks | frontend/src/components/TaskManager.jsx:157 | exactly the cards whose status is "completed" |
| TaskManager.ColumnsPartition | frontend/src/components/TaskManager.jsx:156-157 | the two columns split the board and keep its order |
| TaskManager.UpdateMovesCard | frontend/src/components/TaskManager.jsx:86-88 | a card marked "completed" leaves the first column; any other status leaves it out of the second |
| TaskManager.RemoveFromColumn | frontend/src/components/TaskManager.jsx:115 | deleting and splitting into columns commute |
| TaskManager.StatusLabel | frontend/src/components/TaskManager.jsx:305-309 | "pending" and "in progress" get their labels; anything else reads as completed |
| TaskManager.StatusLabelsOfSchema | frontend/src/components/TaskManager.jsx:305-309 | the three stored statuses get three different labels; a text outside the enum reads as completed |
| TaskManager.CardOf | backend/controllers/taskController.js:43-47 | a card has an assignee exactly when the assigned user still exists |
| TaskManager.SelectorMatchesServer | frontend/src/components/TaskManager.jsx:311 | the selector is shown only to the assignee, and to every existing assignee |
| TaskManager.DeleteButtonMatchesServer | frontend/src/components/TaskManager.jsx:250-322 | on a stored project's board, a task shows the delete button exactly to the user who passes deleteTask's guard (`MayDeleteTask`) |
| ProjectDashboard.TallyLabels | frontend/src/components/ProjectDashboard.jsx:29-35 | the labels are the distinct keys, each once, in first-appearance order |
| ProjectDashboard.TallyValues | frontend/src/components/ProjectDashboard.jsx:29-36 | each value is the number of times its label occurs |
| ProjectDashboard.TallySum | frontend/src/components/ProjectDashboard.jsx:29-36 | the values add up to the number of keys |
| ProjectDashboard.StatusChart | frontend/src/components/ProjectDashboard.jsx:29-36 | one label per status present, each counting the tasks in that status, adding up to the number of tasks |
| ProjectDashboard.DueKey | frontend/src/components/ProjectDashboard.jsx:39 | the due date's text up to its first 'T', or "undefined" without a due date |
| ProjectDashboard.DueDateChart | frontend/src/components/ProjectDashboard.jsx:39-46 | distinct date labels with their counts, adding up to the number of tasks; undated tasks share the label "undefined" |
| ProjectsPage.MyProjects | frontend/src/pages/Projects.jsx:44 | exactly the projects whose team lists the current user |
| ProjectsPage.MyProjectsKeepsServerList | frontend/src/pages/Projects.jsx:44 | for an existing user the page keeps the server's whole answer, in order |
| ProjectsPage.Search | frontend/src/pages/Projects.jsx:52-56 | exactly the projects whose lower-cased name contains the lower-cased query |
| ProjectsPage.EmptySearchKeepsAll | frontend/src/pages/Projects.jsx:52-56 | an empty query shows every project |
| ProjectsPage.SearchIdempotent | frontend/src/pages/Projects.jsx:52-56 | searching a result again for the same query changes nothing |
| ProjectsPage.SearchKeepsOrder | frontend/src/pages/Projects.jsx:52-56 | the search keeps the list's order |
| ProjectsPage.CreateProjectRequest | frontend/src/pages/Projects.jsx:74-89 | nothing is sent exactly when no one is logged in or a field is empty |
| ProjectsPage.CreateRequestAccepted | frontend/src/pages/Projects.jsx:74-89 | a creation request the page sends has a name, and with the date it carries createProject answers 201, never the 400 or the empty-name 500 |
| ProjectsPage.AddMemberRequest | frontend/src/pages/Projects.jsx:106-119 | nothing is sent exactly when no one is logged in or no project or user is chosen |
| ProjectsPage.ShowDeleteMatchesServer | frontend/src/pages/Projects.jsx:185 | a stored project shows the delete button exactly to a logged-in user who passes deleteProject's guard (`MayDeleteProject`), never when logged out |
| UserDashboard.SkillsField | frontend/src/pages/UserDashboard.jsx:46 | no skills give "", a single skill gives itself |
| UserDashboard.FormOf | frontend/src/pages/UserDashboard.jsx:42-47 | the form shows the name, the picture and bio or "" when absent, and the joined skills |
| UserDashboard.SubmittedSkills | frontend/src/pages/UserDashboard.jsx:70 | one trimmed piece per ','-separated part, at least one, none holding a ',' |
| UserDashboard.EmptyFieldGivesBlankSkill | frontend/src/pages/UserDashboard.jsx:70 | an empty field is sent as [""], not [] |
| UserDashboard.SkillsRoundTrip | frontend/src/pages/UserDashboard.jsx:46-70 | a non-empty list of tidy, comma-free skills survives the join and split unchanged |
| UserDashboard.SaveProfile | frontend/src/pages/UserDashboard.jsx:57-70 | saving replaces the skills with the submitted list and the name when given; email, password, role and team stay |
| UserDashboard.UntouchedFormKeepsUser | frontend/src/pages/UserDashboard.jsx:42-70 | saving the form untouched leaves a user with tidy skills unchanged |
| UserDashboard.UntouchedFormAddsBlankSkill | frontend/src/pages/UserDashboard.jsx:42-70 | saving the form untouched gives a user without skills one empty skill |

## Left out

- Socket.io (room joins, message broadcast, `req.io` emits) and e-mail sending. They are networking and foreign calls. A missing `req.io` in `createNotification` would throw after the notification is stored; the model always answers 201.
- The cron schedule and the 30-second timer. One run of `SendDeadlineReminders` is one firing of the job. The timer is the `sweeps` queue, worked off by `RunSweep`.
- Real `Date` handling. Times are integer milliseconds and the time zone is an offset parameter, so daylight-saving changes are not modelled.
- The Gemini call and `JSON.parse` in suggestTasks. The reply is a parameter; only the input check and the fence extraction are modelled.
- Password hashing and token signing. Registration is given the digest; login is given the comparison as a function.
- Filesystem details and `path.extname` edge cases. A name starting with a dot, such as ".pdf", is treated as having an extension.
- `req.file` being absent in uploadFile, which would throw. The upload handler is given the stored name.
- searchController, adminController, the route files, getMe, getUsers, logoutUser, getProjectById, getTasks, listAvailableModels, getFiles and downloadFile. They are reads or wiring without rules of their own.
- backend/models/Notification.js is not part of this model. Its records are taken to hold a user, a message, an unread flag and a creation time.
- The interleavings of `Promise.all` in the chat and file fan-outs, including the race between concurrent duplicate checks. The fan-outs run one recipient after the other.
- SendMessage: the owner is listed twice among the recipients (first, and again as a team member). Under `Promise.all` both duplicate checks normally run before either create, so the owner usually gets two copies of each chat notification; the model runs the checks in order and stores one.
- DeleteProject, UpdateProjectDetails, UpdateTaskStatus, DeleteTask, MarkAsRead, UploadFile, DeleteFile, DeleteContactMessage, GetOrCreateChat, GetMessages and SendMessage: their path and body ids are taken as already-cast ids, so the 500 their catch answers when a text is not an id (Mongoose's cast error) is not modelled.
- UpdateTaskStatus: a body without `status` is not modelled. The source would then set the field to `undefined`, which the enum validator lets through, and answer 200 with the status unset; the model's status is always a text.
- CreateTask: only the assignee is taken as text and cast; the project is taken as an id and the due date as a time, so a body whose project or due date fails its cast (also a 500) is not modelled.
- Ids are natural numbers whose text is decimal, while the application's ids are 24-hexadecimal-digit ObjectIds. The sender-name comparison in SendMessage therefore misses for a different set of names: all-digit names could match in the model, 24-hex-digit names in the application. Likewise `CastId` accepts runs of decimal digits where the application's cast accepts 24 hexadecimal digits; both refuse the empty text.
- Unicode case mapping. `toLowerCase` lowers ASCII letters only.
- The order of equally old notifications in the newest-first listing (Mongo gives no guarantee). The model keeps insertion order among them.
- JavaScript's numeric-key ordering of object keys in the dashboard charts. Statuses and ISO dates are never integer-like keys.
- UploadFile: two uploads of one name in the same millisecond would share a stored name and one record's copy would be overwritten; `UploadKeepsFilesOnDisk` assumes the stored name is new.
- Profile: the answer of the profile update includes the stored password digest; the model returns the updated user as a value and does not model the response body.
- Frontend fetch plumbing, rendering, timers and the list updates of the other components.

=== FILE: auth_controller.dfy ===
/** backend/controllers/authController.js: registration, login and the profile update.
    Hashing and comparing passwords (bcrypt) and signing tokens (JWT) are outside the model:
    registration is handed the digest the pre-save hook would store, and login the
    comparison `user.matchPassword` performs. */
module AuthController {
  import opened Common
  import opened Store

  /** What registration and login answer with: id, name and email, never the password. */
  datatype Account = Account(id: Id, name: string, email: string)

  /** A user document with this email exists. */
  ghost predicate EmailTaken(users: map<Id, User>, email: string)
  {
    exists k :: k in users && users[k].email == email
  }

  /** The schema's `unique: true` on email: no two users share one. */
  ghost predicate UniqueEmails(users: map<Id, User>)
  {
    forall j, k :: j in users && k in users && users[j].email == users[k].email ==> j == k
  }

  /** `User.findOne({ email })` over ids below `hi`. */
  function UserByEmail(users: map<Id, User>, email: string, hi: nat): (r: Option<Id>)
    requires forall k :: k in users ==> k < hi
    ensures r.None? <==> !EmailTaken(users, email)
    ensures r.Some? ==> r.value in users && users[r.value].email == email
    ensures r.Some? && UniqueEmails(users) ==> forall k :: k in users && users[k].email == email ==> k == r.value
  {
    FindFirst(users, (u: User) => u.email == email, 0, hi)
  }

  /** A new account as `User.create` stores it: the defaults of backend/models/User.js
      (role "user", no team, empty picture and bio, no skills) and the password digest. */
  function NewUser(name: string, email: string, digest: string): User
  {
    User(name, email, digest, Member, [], "", "", [])
  }

  /** registerUser: 400 unless name, email and password are all given, 400 when the email
      is taken; otherwise one new user, and the answer leaves the password out. Emails stay
      unique. */
  method RegisterUser(db: Db, name: string, email: string, password: string, digest: string)
    returns (code: int, account: Option<Account>)
    requires db.Valid()
    modifies db`users, db`nextId
    ensures db.Valid()
    ensures name == "" || email == "" || password == "" ==>
              code == BadRequest && account.None? && db.Model() == old(db.Model())
    ensures name != "" && email != "" && password != "" && EmailTaken(old(db.users), email) ==>
              code == BadRequest && account.None? && db.Model() == old(db.Model())
    ensures name != "" && email != "" && password != "" && !EmailTaken(old(db.users), email) ==>
              && code == Created && account == Some(Account(old(db.nextId), name, email))
              && db.users == old(db.users)[old(db.nextId) := NewUser(name, email, digest)]
              && db.nextId == old(db.nextId) + 1
    ensures UniqueEmails(old(db.users)) ==> UniqueEmails(db.users)
  {
    if name == "" || email == "" || password == "" {
      return BadRequest, None;
    }
    if UserByEmail(db.users, email, db.nextId).Some? {
      return BadRequest, None;
    }
    var id := db.CreateUser(NewUser(name, email, digest));
    return Created, Some(Account(id, name, email));
  }

  /** loginUser: 400 unless email and password are given, 401 when no user has the email or
      the password does not match the stored digest, otherwise 200 with the account. It
      changes nothing (the token cookie is left out). */
  function LoginUser(users: map<Id, User>, hi: nat, email: string, password: string,
                     matches: (string, string) -> bool): (r: (int, Option<Account>))
    requires forall k :: k in users ==> k < hi
    ensures r.0 == BadRequest <==> email == "" || password == ""
    ensures email != "" && password != "" && !EmailTaken(users, email) ==> r == (Unauthorized, None)
    ensures r.0 in {BadRequest, Unauthorized} <==> r.1.None?
    ensures r.0 in {BadRequest, Unauthorized, OK}
    ensures r.0 == OK ==>
              exists k :: k in users && users[k].email == email && matches(password, users[k].password)
                          && r.1 == Some(Account(k, users[k].name, email))
  {
    if email == "" || password == "" then (BadRequest, None)
    else
      match UserByEmail(users, email, hi)
      case None => (Unauthorized, None)
      case Some(k) =>
        if !matches(password, users[k].password) then (Unauthorized, None)
        else (OK, Some(Account(k, users[k].name, email)))
  }

  /** With unique emails, login succeeds exactly when the user with that email has a
      matching password. */
  lemma LoginSucceedsIffMatch(users: map<Id, User>, hi: nat, email: string, password: string,
                              matches: (string, string) -> bool, k: Id)
    requires forall j :: j in users ==> j < hi
    requires UniqueEmails(users) && email != "" && password != ""
    requires k in users && users[k].email == email
    ensures LoginUser(users, hi, email, password, matches).0 == OK <==> matches(password, users[k].password)
  {
    var found := UserByEmail(users, email, hi);
    assert found == Some(k);
  }

  /** `a || b` on an optional string from the request: a missing or empty value is falsy
      and keeps `b`. */
  function OrElse(given: Option<string>, current: string): (r: string)
    ensures given.Some? && given.value != "" ==> r == given.value
    ensures given.None? || given.value == "" ==> r == current
  {
    if given.Some? && given.value != "" then given.value else current
  }

  /** profile, lines 135-138: name, picture and bio are replaced only by a non-empty value,
      so "" never clears them; skills are replaced whenever given, since an array, even an
      empty one, is truthy. Nothing else of the user changes. */
  function ApplyProfile(u: User, name: Option<string>, profilePic: Option<string>, bio: Option<string>,
                        skills: Option<seq<string>>): (r: User)
    ensures r.email == u.email && r.password == u.password && r.role == u.role && r.team == u.team
    ensures r.name == OrElse(name, u.name) && r.profilePic == OrElse(profilePic, u.profilePic)
    ensures r.bio == OrElse(bio, u.bio)
    ensures r.skills == if skills.Some? then skills.value else u.skills
  {
    u.(name := OrElse(name, u.name), profilePic := OrElse(profilePic, u.profilePic),
       bio := OrElse(bio, u.bio), skills := if skills.Some? then skills.value else u.skills)
  }

  /** Sending the same profile form twice changes nothing the second time. */
  lemma ApplyProfileIdempotent(u: User, name: Option<string>, profilePic: Option<string>,
                               bio: Option<string>, skills: Option<seq<string>>)
    ensures ApplyProfile(ApplyProfile(u, name, profilePic, bio, skills), name, profilePic, bio, skills)
         == ApplyProfile(u, name, profilePic, bio, skills)
  {
  }

  /** An empty text value keeps its field whatever else the form holds, and a form of
      empty texts without skills changes nothing; an empty skills list, by contrast, does
      clear the skills. */
  lemma EmptyProfileKeepsUser(u: User, name: Option<string>, profilePic: Option<string>,
                              bio: Option<string>, skills: Option<seq<string>>)
    ensures ApplyProfile(u, Some(""), profilePic, bio, skills).name == u.name
    ensures ApplyProfile(u, name, Some(""), bio, skills).profilePic == u.profilePic
    ensures ApplyProfile(u, name, profilePic, Some(""), skills).bio == u.bio
    ensures ApplyProfile(u, Some(""), Some(""), Some(""), None) == u
    ensures ApplyProfile(u, None, None, None, None) == u
    ensures ApplyProfile(u, name, profilePic, bio, Some([])).skills == []
  {
  }

  /** profile: 404 for an unknown caller; otherwise the caller's own document is updated
      as `ApplyProfile` says and no other user changes. */
  method Profile(db: Db, actor: Id, name: Option<string>, profilePic: Option<string>,
                 bio: Option<string>, skills: Option<seq<string>>)
    returns (code: int, updated: Option<User>)
    requires db.Valid()
    modifies db`users
    ensures db.Valid()
    ensures actor !in old(db.users) ==> code == NotFound && updated.None? && db.Model() == old(db.Model())
    ensures actor in old(db.users) ==>
              var u := ApplyProfile(old(db.users[actor]), name, profilePic, bio, skills);
              && code == OK && updated == Some(u)
              && db.Model() == old(db.Model()).(users := old(db.users)[actor := u])
  {
    if actor !in db.users {
      return NotFound, None;
    }
    var u := ApplyProfile(db.users[actor], name, profilePic, bio, skills);
    db.users := db.users[actor := u];
    return OK, Some(u);
  }
}

=== FILE: chat_controller.dfy ===
/** backend/controllers/chatController.js: a project's chat, created on first use, the
    messages appended to it, and the notifications a new message fans out to the project's
    owner and team, at most one unread copy per member. */
module ChatController {
  import opened Common
  import opened Text
  import opened Store

  /** `Chat.findOne({ projectId })`, created empty when missing. */
  method GetOrCreateChat(db: Db, projectId: Id) returns (code: int, messages: seq<ChatMessage>)
    modifies db`chats
    ensures code == OK
    ensures projectId in old(db.chats) ==> messages == old(db.chats[projectId]) && db.chats == old(db.chats)
    ensures projectId !in old(db.chats) ==> messages == [] && db.chats == old(db.chats)[projectId := []]
  {
    if projectId !in db.chats {
      db.chats := db.chats[projectId := []];
    }
    return OK, db.chats[projectId];
  }

  /** The chats after `getOrCreateChat`: a chat for `projectId`, the old one if any. */
  function WithChat(chats: map<Id, seq<ChatMessage>>, projectId: Id): (r: map<Id, seq<ChatMessage>>)
    ensures projectId in r && r.Keys == chats.Keys + {projectId}
    ensures forall k :: k in chats ==> r[k] == chats[k]
    ensures projectId !in chats ==> r[projectId] == []
  {
    if projectId in chats then chats else chats[projectId := []]
  }

  /** Asking for the chat a second time finds the one the first call made. */
  lemma WithChatIdempotent(chats: map<Id, seq<ChatMessage>>, projectId: Id)
    ensures WithChat(WithChat(chats, projectId), projectId) == WithChat(chats, projectId)
  {
  }

  /** getMessages: the project's messages in the order they were sent, or none when the
      project has no chat yet. */
  method GetMessages(db: Db, projectId: Id) returns (code: int, messages: seq<ChatMessage>)
    ensures code == OK
    ensures projectId in db.chats ==> messages == db.chats[projectId]
    ensures projectId !in db.chats ==> messages == []
  {
    if projectId !in db.chats {
      return OK, [];
    }
    return OK, db.chats[projectId];
  }

  /** Lines 46-48: the owner followed by the team, minus every entry whose id text equals
      the `sender` field. The client sends the sender's display name there. */
  function Recipients(owner: Id, members: seq<Id>, sender: string): seq<Id>
  {
    Filter([owner] + members, (m: Id) => IdText(m) != sender)
  }

  /** A sender field holding anything but digits (a display name) matches no id, so the
      sender is notified of their own message and the owner, being on the team too, is
      listed twice. */
  lemma NameSenderExcludesNobody(owner: Id, members: seq<Id>, sender: string, i: nat)
    requires i < |sender| && !IsDigit(sender[i])
    ensures Recipients(owner, members, sender) == [owner] + members
  {
    var all := [owner] + members;
    forall j | 0 <= j < |all| ensures IdText(all[j]) != sender {
    }
    FilterKeepsAll(all, (m: Id) => IdText(m) != sender);
  }

  /** The id text of a member matches the sender field exactly when the member is dropped. */
  lemma RecipientsSpec(owner: Id, members: seq<Id>, sender: string)
    ensures forall u :: u in Recipients(owner, members, sender) <==>
              (u == owner || u in members) && IdText(u) != sender
  {
  }

  /** The text of the notification a chat message sends. */
  function ChatNotice(projectName: string, actorName: string, text: string): string
  {
    "New message in project \"" + projectName + "\" by " + actorName + ": \"" + text + "\""
  }

  /** `Notification.findOne({ user, message, read: false })` would find something. */
  ghost predicate HasUnread(m: map<Id, Notification>, u: Id, msg: string)
  {
    exists k :: k in m && m[k].user == u && m[k].message == msg && !m[k].read
  }

  /** The recipients, in order, who receive a new notification when the checks and creates
      run one recipient after the other: those without an unread copy already stored and
      not already served earlier in the list. */
  ghost function Fresh(before: map<Id, Notification>, rs: seq<Id>, msg: string): seq<Id>
    decreases |rs|
  {
    if rs == [] then []
    else
      var n := |rs| - 1;
      var f := Fresh(before, rs[..n], msg);
      if HasUnread(before, rs[n], msg) || rs[n] in rs[..n] then f else f + [rs[n]]
  }

  /** A recipient is served exactly when no unread copy was stored before, and no one is
      served twice (the owner, listed twice, gets one notification). */
  lemma {:induction false} FreshSpec(before: map<Id, Notification>, rs: seq<Id>, msg: string)
    ensures forall u :: u in Fresh(before, rs, msg) <==> u in rs && !HasUnread(before, u, msg)
    ensures forall i, j :: 0 <= i < j < |Fresh(before, rs, msg)| ==>
              Fresh(before, rs, msg)[i] != Fresh(before, rs, msg)[j]
    decreases |rs|
  {
    if rs != [] {
      var n := |rs| - 1;
      FreshSpec(before, rs[..n], msg);
      assert rs == rs[..n] + [rs[n]];
    }
  }

  /** With the stored batch on ids above every old one, a user has an unread copy
      afterwards exactly when they had one before or were in the batch. */
  lemma HasUnreadAfterStored(before: map<Id, Notification>, us: seq<Id>, msg: string,
                             from: Id, now: int, u: Id)
    requires forall k :: k in before ==> k < from
    ensures HasUnread(before + Stored(NotesFor(us, msg), from, now), u, msg)
            <==> HasUnread(before, u, msg) || u in us
  {
    var batch := NotesFor(us, msg);
    var after := before + Stored(batch, from, now);
    if HasUnread(after, u, msg) {
      var k :| k in after && after[k].user == u && after[k].message == msg && !after[k].read;
      StoredAt(batch, from, now, k);
      if k in Stored(batch, from, now) {
        assert us[k - from] == u;
      } else {
        assert before[k] == after[k];
      }
    }
    if u in us {
      var j :| 0 <= j < |us| && us[j] == u;
      StoredAt(batch, from, now, from + j);
      assert after[from + j] == Notification(u, msg, false, now);
    } else if HasUnread(before, u, msg) {
      var k :| k in before && before[k].user == u && before[k].message == msg && !before[k].read;
      StoredAt(batch, from, now, k);
      assert after[k] == before[k];
    }
  }

  /** After the fan-out, every recipient has an unread copy of the message, and the only
      new notifications are the served recipients' copies. */
  lemma UnreadAfterRelay(before: map<Id, Notification>, rs: seq<Id>, msg: string,
                         from: Id, now: int)
    requires forall k :: k in before ==> k < from
    ensures forall u :: u in rs ==>
              HasUnread(before + Stored(NotesFor(Fresh(before, rs, msg), msg), from, now), u, msg)
  {
    FreshSpec(before, rs, msg);
    forall u | u in rs
      ensures HasUnread(before + Stored(NotesFor(Fresh(before, rs, msg), msg), from, now), u, msg)
    {
      HasUnreadAfterStored(before, Fresh(before, rs, msg), msg, from, now, u);
    }
  }

  /** `Notification.findOne({ user, message, read: false })` over the stored ids. */
  function FindUnread(m: map<Id, Notification>, u: Id, msg: string, hi: nat): (r: Option<Id>)
    requires forall k :: k in m ==> k < hi
    ensures r.Some? <==> HasUnread(m, u, msg)
    ensures r.Some? ==> r.value in m && m[r.value] == Notification(u, msg, false, m[r.value].createdAt)
  {
    FindFirst(m, (n: Notification) => n.user == u && n.message == msg && !n.read, 0, hi)
  }

  /** One step of the fan-out: the next recipient is served exactly when the store holds
      no unread copy for them yet, and serving them stores their copy under the next id. */
  lemma RelayStep(before: map<Id, Notification>, rs: seq<Id>, i: nat, msg: string, from: Id, now: int)
    requires i < |rs|
    requires forall k :: k in before ==> k < from
    ensures var f := Fresh(before, rs[..i], msg);
            var current := before + Stored(NotesFor(f, msg), from, now);
            && (HasUnread(current, rs[i], msg) ==> Fresh(before, rs[..i + 1], msg) == f)
            && (!HasUnread(current, rs[i], msg) ==>
                  && Fresh(before, rs[..i + 1], msg) == f + [rs[i]]
                  && current[from + |f| := Notification(rs[i], msg, false, now)]
                     == before + Stored(NotesFor(f + [rs[i]], msg), from, now))
  {
    var f := Fresh(before, rs[..i], msg);
    assert rs[..i + 1][..i] == rs[..i];
    HasUnreadAfterStored(before, f, msg, from, now, rs[i]);
    FreshSpec(before, rs[..i], msg);
    var batch := NotesFor(f + [rs[i]], msg);
    assert batch[..|f|] == NotesFor(f, msg);
    assert batch[..|f| + 1] == batch;
    StoredStep(before, batch, |f|, from, now);
  }

  /** The fan-out loop of lines 51-72, one recipient at a time: look for an unread copy,
      create one when there is none. */
  method Relay(db: Db, rs: seq<Id>, msg: string, now: int)
    requires db.Valid()
    modifies db`notifications, db`nextId
    ensures db.Valid()
    ensures var f := Fresh(old(db.notifications), rs, msg);
            && db.notifications == old(db.notifications) + Stored(NotesFor(f, msg), old(db.nextId), now)
            && db.nextId == old(db.nextId) + |f|
  {
    ghost var before := db.notifications;
    ghost var from := db.nextId;
    var i := 0;
    while i < |rs|
      invariant 0 <= i <= |rs|
      invariant old(db.Valid()) && forall k :: k in db.notifications ==> k < db.nextId
      invariant db.notifications == before + Stored(NotesFor(Fresh(before, rs[..i], msg), msg), from, now)
      invariant db.nextId == from + |Fresh(before, rs[..i], msg)|
    {
      RelayStep(before, rs, i, msg, from, now);
      ghost var next := Fresh(before, rs[..i + 1], msg);
      var dup := FindUnread(db.notifications, rs[i], msg, db.nextId);
      if dup.None? {
        db.notifications := db.notifications[db.nextId := Notification(rs[i], msg, false, now)];
        db.nextId := db.nextId + 1;
      }
      assert db.notifications == before + Stored(NotesFor(next, msg), from, now);
      i := i + 1;
    }
    assert rs[..i] == rs;
  }

  /** The chats once `m` is pushed onto the project's chat, which is created if missing:
      the earlier messages stay, in order, and `m` comes last. */
  function Appended(chats: map<Id, seq<ChatMessage>>, projectId: Id, m: ChatMessage)
    : (r: map<Id, seq<ChatMessage>>)
    ensures projectId in r && r.Keys == chats.Keys + {projectId}
    ensures forall k :: k in chats && k != projectId ==> r[k] == chats[k]
    ensures |r[projectId]| >= 1 && r[projectId][|r[projectId]| - 1] == m
    ensures r[projectId][..|r[projectId]| - 1] == (if projectId in chats then chats[projectId] else [])
  {
    var c := WithChat(chats, projectId);
    c[projectId := c[projectId] + [m]]
  }

  /** sendMessage: the chat is created if missing and the message appended at its end. The
      schema requires a sender and a text, so without them the save fails after the chat
      was created. The message stays even when the project turns out to be missing (404),
      or when its owner's document is gone and reading the owner's id throws (500). Then
      every recipient without an unread copy of the notice gets one. */
  method SendMessage(db: Db, actor: Actor, projectId: Id, text: string, sender: string, now: int)
    returns (code: int, sent: Option<ChatMessage>)
    requires db.Valid()
    modifies db`chats, db`notifications, db`nextId
    ensures db.Valid()
    ensures (text == "" || sender == "") ==>
              && code == ServerError && sent.None?
              && db.Model() == old(db.Model()).(chats := WithChat(old(db.chats), projectId))
    ensures text != "" && sender != "" && projectId !in old(db.projects) ==>
              && code == NotFound && sent.None?
              && db.Model() == old(db.Model()).(
                   chats := Appended(old(db.chats), projectId, ChatMessage(sender, text, now)))
    ensures text != "" && sender != "" && projectId in old(db.projects)
            && old(db.projects[projectId].owner) !in old(db.users) ==>
              && code == ServerError && sent.None?
              && db.Model() == old(db.Model()).(
                   chats := Appended(old(db.chats), projectId, ChatMessage(sender, text, now)))
    ensures text != "" && sender != "" && projectId in old(db.projects)
            && old(db.projects[projectId].owner) in old(db.users) ==>
              var s := old(db.Model());
              var p := s.projects[projectId];
              var msg := ChatNotice(p.name, actor.name, text);
              var f := Fresh(s.notifications, Recipients(p.owner, Populated(s.users, p.team), sender), msg);
              && code == OK && sent == Some(ChatMessage(sender, text, now))
              && db.Model() == s.(
                   chats := Appended(s.chats, projectId, ChatMessage(sender, text, now)),
                   notifications := s.notifications + Stored(NotesFor(f, msg), s.nextId, now),
                   nextId := s.nextId + |f|)
  {
    if text == "" || sender == "" {
      db.chats := WithChat(db.chats, projectId);
      return ServerError, None;
    }
    var m := ChatMessage(sender, text, now);
    db.chats := Appended(db.chats, projectId, m);
    if projectId !in db.projects {
      return NotFound, None;
    }
    var p := db.projects[projectId];
    if p.owner !in db.users {
      return ServerError, None;
    }
    var rs := Recipients(p.owner, Populated(db.users, p.team), sender);
    Relay(db, rs, ChatNotice(p.name, actor.name, text), now);
    return OK, Some(m);
  }
}

=== FILE: common.dfy ===
/** Shared vocabulary: an optional value, the HTTP status codes the handlers answer with,
    and `Array.prototype.filter` on sequences, which the handlers and the pages use alike. */
module Common {

  datatype Option<T> = None | Some(value: T)

  // Status codes of the REST handlers.
  const OK: int := 200
  const Created: int := 201
  const BadRequest: int := 400
  const Unauthorized: int := 401
  const Forbidden: int := 403
  const NotFound: int := 404
  /** What a handler's `catch` answers when the document store rejects a write
      (a schema validation error, for instance). */
  const ServerError: int := 500

  /** `s.filter(p)`: the elements that satisfy `p`, in their original order. */
  function Filter<T>(s: seq<T>, p: T -> bool): (r: seq<T>)
    ensures |r| <= |s|
    ensures forall i :: 0 <= i < |r| ==> r[i] in s && p(r[i])
    ensures forall i :: 0 <= i < |s| && p(s[i]) ==> s[i] in r
    decreases |s|
  {
    if s == [] then [] else (if p(s[0]) then [s[0]] else []) + Filter(s[1..], p)
  }

  /** Filtering distributes over concatenation: nothing is reordered. */
  lemma {:induction false} FilterConcat<T>(s: seq<T>, t: seq<T>, p: T -> bool)
    ensures Filter(s + t, p) == Filter(s, p) + Filter(t, p)
    decreases |s|
  {
    if s == [] {
      assert s + t == t;
    } else {
      assert (s + t)[1..] == s[1..] + t;
      FilterConcat(s[1..], t, p);
    }
  }

  /** A filter and its complement split the input: every element lands in exactly one of them. */
  lemma {:induction false} FilterPartition<T>(s: seq<T>, p: T -> bool, q: T -> bool)
    requires forall x :: q(x) <==> !p(x)
    ensures multiset(Filter(s, p)) + multiset(Filter(s, q)) == multiset(s)
    ensures |Filter(s, p)| + |Filter(s, q)| == |s|
    decreases |s|
  {
    if s != [] {
      FilterPartition(s[1..], p, q);
      assert s == [s[0]] + s[1..];
    }
  }

  /** A filter that every element passes returns its input unchanged. */
  lemma {:induction false} FilterKeepsAll<T>(s: seq<T>, p: T -> bool)
    requires forall i :: 0 <= i < |s| ==> p(s[i])
    ensures Filter(s, p) == s
    decreases |s|
  {
    if s != [] {
      FilterKeepsAll(s[1..], p);
    }
  }

  /** Two filters applied one after the other give the same result in either order. */
  lemma {:induction false} FilterCommute<T>(s: seq<T>, p: T -> bool, q: T -> bool)
    ensures Filter(Filter(s, p), q) == Filter(Filter(s, q), p)
    decreases |s|
  {
    if s != [] {
      var head := if p(s[0]) then [s[0]] else [];
      var head' := if q(s[0]) then [s[0]] else [];
      FilterConcat(head, Filter(s[1..], p), q);
      FilterConcat(head', Filter(s[1..], q), p);
      FilterCommute(s[1..], p, q);
    }
  }

  /** No element occurs twice. */
  predicate Distinct<T(==)>(s: seq<T>)
  {
    forall i, j :: 0 <= i < j < |s| ==> s[i] != s[j]
  }

  /** In a sequence without repeats every element occurs at most once. */
  lemma {:induction false} DistinctCount<T>(s: seq<T>, x: T)
    requires Distinct(s)
    ensures multiset(s)[x] <= 1
    decreases |s|
  {
    if s != [] {
      assert s == [s[0]] + s[1..];
      DistinctCount(s[1..], x);
      assert s[0] !in s[1..];
    }
  }

  /** An element found at two places occurs at least twice. */
  lemma RepeatCount<T>(s: seq<T>, i: nat, j: nat)
    requires i < j < |s|
    ensures s[i] == s[j] ==> multiset(s)[s[i]] >= 2
  {
    assert s == s[..j] + s[j..];
    assert s[i] in s[..j] && s[j] in s[j..];
  }

  /** Taking some of the elements of a sequence without repeats gives none twice. */
  lemma SubDistinct<T>(r: seq<T>, s: seq<T>)
    requires multiset(r) <= multiset(s) && Distinct(s)
    ensures Distinct(r)
  {
    forall i, j | 0 <= i < j < |r|
      ensures r[i] != r[j]
    {
      RepeatCount(r, i, j);
      DistinctCount(s, r[i]);
    }
  }
}

=== FILE: deadline_reminder.dfy ===
/** backend/utils/deadlineReminder.js: the daily job that reminds the team of every
    project due the next day. The schedule itself is left to the caller: one run of
    `SendDeadlineReminders` is one firing of the job, at time `now` (milliseconds since the
    epoch) in a time zone `offset` milliseconds ahead of UTC. */
module DeadlineReminder {
  import opened Common
  import opened Store

  const Day: int := 86400000

  /** Lines 10-12: midnight at the start of the next local day. It lies after `now` and
      at most a day after it, on a local day boundary. */
  function WindowStart(now: int, offset: int): (t: int)
    ensures now < t <= now + Day
    ensures (t + offset) % Day == 0
  {
    var q := (now + offset) / Day;
    assert q * Day <= now + offset < q * Day + Day;
    assert ((q + 1) * Day - offset + offset) % Day == 0;
    (q + 1) * Day - offset
  }

  /** Line 15's query: `$gte` the window start and `$lt` a day later. */
  predicate InWindow(t: int, deadline: int)
  {
    t <= deadline < t + Day
  }

  function ReminderText(projectName: string): string
  {
    "Reminder: The deadline for project \"" + projectName + "\" is tomorrow!"
  }

  /** The projects stored under `ids`, in that order. */
  function ProjectsAt(projects: map<Id, Project>, ids: seq<Id>): (r: seq<Project>)
    requires forall i :: 0 <= i < |ids| ==> ids[i] in projects
    ensures |r| == |ids| && forall i :: 0 <= i < |ids| ==> r[i] == projects[ids[i]]
  {
    seq(|ids|, i requires 0 <= i < |ids| => projects[ids[i]])
  }

  /** The reminders for one project: one per populated team member, in team order. */
  function TeamNotes(users: map<Id, User>, p: Project): seq<Note>
  {
    NotesFor(Populated(users, p.team), ReminderText(p.name))
  }

  /** The reminders for the projects `ps`, in project order and within a project in team
      order: one per populated team member. */
  function ReminderNotes(users: map<Id, User>, ps: seq<Project>): seq<Note>
    decreases |ps|
  {
    if ps == [] then [] else TeamNotes(users, ps[0]) + ReminderNotes(users, ps[1..])
  }

  /** The number of populated team members over the projects `ps`. */
  function MemberCount(users: map<Id, User>, ps: seq<Project>): nat
    decreases |ps|
  {
    if ps == [] then 0 else |Populated(users, ps[0].team)| + MemberCount(users, ps[1..])
  }

  /** Reminders for two lists of projects, one after the other. */
  lemma {:induction false} ReminderNotesConcat(users: map<Id, User>, a: seq<Project>, b: seq<Project>)
    ensures ReminderNotes(users, a + b) == ReminderNotes(users, a) + ReminderNotes(users, b)
    decreases |a|
  {
    if a == [] {
      assert a + b == b;
    } else {
      assert (a + b)[1..] == a[1..] + b;
      ReminderNotesConcat(users, a[1..], b);
    }
  }

  /** Exactly one reminder per pair of a project and a member of its team. */
  lemma {:induction false} ReminderCount(users: map<Id, User>, ps: seq<Project>)
    ensures |ReminderNotes(users, ps)| == MemberCount(users, ps)
    decreases |ps|
  {
    if ps != [] {
      ReminderCount(users, ps[1..]);
    }
  }

  /** Every reminder goes to an existing member of one of the projects' teams (never to an
      owner as such) and names that project. */
  lemma {:induction false} ReminderRecipients(users: map<Id, User>, ps: seq<Project>, j: nat)
    requires j < |ReminderNotes(users, ps)|
    ensures exists i :: 0 <= i < |ps| && ReminderNotes(users, ps)[j].user in ps[i].team
              && ReminderNotes(users, ps)[j].user in users
              && ReminderNotes(users, ps)[j].message == ReminderText(ps[i].name)
    decreases |ps|
  {
    var first := TeamNotes(users, ps[0]);
    if j < |first| {
      var members := Populated(users, ps[0].team);
      assert ReminderNotes(users, ps)[j] == Note(members[j], ReminderText(ps[0].name));
    } else {
      ReminderRecipients(users, ps[1..], j - |first|);
      var rest := ReminderNotes(users, ps[1..]);
      var i :| 0 <= i < |ps| - 1 && rest[j - |first|].user in ps[1..][i].team
               && rest[j - |first|].user in users && rest[j - |first|].message == ReminderText(ps[1..][i].name);
      assert ps[1..][i] == ps[i + 1];
    }
  }

  /** Every existing member of every listed project's team gets its reminder. */
  lemma {:induction false} ReminderComplete(users: map<Id, User>, ps: seq<Project>, i: nat, u: Id)
    requires i < |ps| && u in ps[i].team && u in users
    ensures Note(u, ReminderText(ps[i].name)) in ReminderNotes(users, ps)
    decreases |ps|
  {
    if i == 0 {
      var members := Populated(users, ps[0].team);
      var k :| 0 <= k < |members| && members[k] == u;
      assert TeamNotes(users, ps[0])[k] == Note(u, ReminderText(ps[0].name));
    } else {
      assert ps[1..][i - 1] == ps[i];
      ReminderComplete(users, ps[1..], i - 1, u);
    }
  }

  /** Reminding the team of project `i` extends what the first `i` projects left. */
  lemma ReminderStep(users: map<Id, User>, ps: seq<Project>, i: nat, base: map<Id, Notification>,
                     prev: map<Id, Notification>, after: map<Id, Notification>, from: Id, start: Id,
                     now: int)
    requires i < |ps|
    requires prev == base + Stored(ReminderNotes(users, ps[..i]), from, now)
    requires start == from + |ReminderNotes(users, ps[..i])|
    requires after == prev + Stored(TeamNotes(users, ps[i]), start, now)
    ensures after == base + Stored(ReminderNotes(users, ps[..i + 1]), from, now)
    ensures start + |TeamNotes(users, ps[i])| == from + |ReminderNotes(users, ps[..i + 1])|
  {
    var done, batch := ReminderNotes(users, ps[..i]), TeamNotes(users, ps[i]);
    assert ps[..i + 1] == ps[..i] + [ps[i]];
    ReminderNotesConcat(users, ps[..i], [ps[i]]);
    assert ReminderNotes(users, [ps[i]]) == batch;
    StoredAppend(base, prev, after, done, batch, from, start, now);
  }

  /** The loop over the projects found: each project's team, populated, is reminded one
      member after the other. */
  method RemindTeams(db: Db, ps: seq<Project>, now: int)
    requires db.Valid()
    modifies db`notifications, db`nextId
    ensures db.Valid()
    ensures db.notifications == old(db.notifications) + Stored(ReminderNotes(db.users, ps), old(db.nextId), now)
    ensures db.nextId == old(db.nextId) + |ReminderNotes(db.users, ps)|
  {
    ghost var base := db.notifications;
    ghost var from := db.nextId;
    var i := 0;
    while i < |ps|
      invariant 0 <= i <= |ps|
      invariant old(db.Valid()) && forall k :: k in db.notifications ==> k < db.nextId
      invariant db.notifications == base + Stored(ReminderNotes(db.users, ps[..i]), from, now)
      invariant db.nextId == from + |ReminderNotes(db.users, ps[..i])|
    {
      ghost var prev, start := db.notifications, db.nextId;
      db.NotifyAll(TeamNotes(db.users, ps[i]), now);
      ReminderStep(db.users, ps, i, base, prev, db.notifications, from, start, now);
      i := i + 1;
    }
    assert ps[..i] == ps;
  }

  /** One firing of the job: the projects due in the next local day, in insertion order,
      and for each of them a reminder to every team member, created one by one. */
  method SendDeadlineReminders(db: Db, now: int, offset: int) returns (selected: seq<Id>)
    requires db.Valid()
    modifies db`notifications, db`nextId
    ensures db.Valid()
    ensures forall p :: p in selected <==>
              p in old(db.projects) && InWindow(WindowStart(now, offset), old(db.projects[p].deadline))
    ensures forall i, j :: 0 <= i < j < |selected| ==> selected[i] < selected[j]
    ensures forall i :: 0 <= i < |selected| ==> selected[i] in old(db.projects)
    ensures db.notifications == old(db.notifications)
              + Stored(ReminderNotes(db.users, ProjectsAt(db.projects, selected)), old(db.nextId), now)
    ensures db.nextId == old(db.nextId) + |ReminderNotes(db.users, ProjectsAt(db.projects, selected))|
  {
    var t := WindowStart(now, offset);
    selected := Matching(db.projects, (p: Project) => InWindow(t, p.deadline), db.nextId);
    RemindTeams(db, ProjectsAt(db.projects, selected), now);
  }
}

=== FILE: file_controller.dfy ===
/** backend/controllers/fileController.js behind the upload middleware: storing a project
    file and telling the team about it, and deleting a file's record and its stored copy. */
module FileController {
  import opened Common
  import opened Store

  function UploadNotice(originalName: string, projectName: string): string
  {
    "New file \"" + originalName + "\" uploaded in project \"" + projectName + "\"."
  }

  /** Lines 29-31: the owner and then each stored team entry, except the uploader. Nothing
      is deduplicated: a user gets one notice per time they are listed. */
  function UploadRecipients(owner: Id, team: seq<Id>, uploader: Id): (r: seq<Id>)
    ensures uploader !in r
    ensures forall u :: u != uploader ==> multiset(r)[u] == multiset([owner] + team)[u]
  {
    var keep := (m: Id) => m != uploader;
    var r := Filter([owner] + team, keep);
    var drop := (m: Id) => m == uploader;
    FilterPartition([owner] + team, keep, drop);
    var dropped := Filter([owner] + team, drop);
    assert forall u :: u != uploader ==> u !in dropped;
    r
  }

  /** The notices of one upload, in recipient order. */
  function UploadNotes(p: Project, uploader: Id, originalName: string): seq<Note>
  {
    NotesFor(UploadRecipients(p.owner, p.team, uploader), UploadNotice(originalName, p.name))
  }

  /** An owner who is also listed on the team, and is not the uploader, is told twice. */
  lemma OwnerOnTeamToldTwice(owner: Id, team: seq<Id>, uploader: Id)
    requires owner in team && owner != uploader
    ensures multiset(UploadRecipients(owner, team, uploader))[owner] >= 2
  {
    assert multiset([owner] + team)[owner] == 1 + multiset(team)[owner];
  }

  /** Every stored file record has its stored copy on disk, and no two records share one. */
  ghost predicate FilesOnDisk(s: State)
  {
    && (forall f :: f in s.files ==> s.files[f].filepath in s.blobs)
    && (forall f, g :: f in s.files && g in s.files && f != g ==> s.files[f].filepath != s.files[g].filepath)
  }

  /** uploadFile, after `Receive` has stored the file as `filename`: 404 when the project
      is missing (the stored copy stays on disk, with no record); otherwise the file is
      recorded and `UploadRecipients` are notified one after the other. */
  method UploadFile(db: Db, actor: Id, projectId: Id, originalName: string, filename: string, now: int)
    returns (code: int, created: Option<Id>)
    requires db.Valid()
    modifies db`files, db`notifications, db`nextId
    ensures db.Valid()
    ensures projectId !in old(db.projects) ==>
              code == NotFound && created.None? && db.Model() == old(db.Model())
    ensures projectId in old(db.projects) ==>
              var p := old(db.projects[projectId]);
              var batch := UploadNotes(p, actor, originalName);
              && code == Created && created == Some(old(db.nextId))
              && db.files == old(db.files)[old(db.nextId) := FileRecord(originalName, filename, projectId, actor, now)]
              && db.notifications == old(db.notifications) + Stored(batch, old(db.nextId) + 1, now)
              && db.nextId == old(db.nextId) + 1 + |batch|
  {
    if projectId !in db.projects {
      return NotFound, None;
    }
    var p := db.projects[projectId];
    var batch := UploadNotes(p, actor, originalName);
    var id := db.CreateFile(FileRecord(originalName, filename, projectId, actor, now));
    ghost var files := db.files;
    db.NotifyAll(batch, now);
    assert db.files == files;
    return Created, Some(id);
  }

  /** An upload keeps every record's copy on disk, provided its stored name is new (two
      uploads of one name in the same millisecond share a stored name). */
  lemma UploadKeepsFilesOnDisk(s: State, id: Id, rec: FileRecord)
    requires FilesOnDisk(s) && id !in s.files && rec.filepath !in s.blobs
    ensures FilesOnDisk(s.(blobs := s.blobs + {rec.filepath}, files := s.files[id := rec]))
  {
  }

  /** A refused upload to a missing project leaves a copy on disk that no record names. */
  lemma MissingProjectKeepsFilesOnDisk(s: State, stored: string)
    requires FilesOnDisk(s)
    ensures FilesOnDisk(s.(blobs := s.blobs + {stored}))
  {
  }

  /** deleteFile: 404 for an unknown id; otherwise the stored copy is removed if present and
      the record deleted, and no other file changes. */
  method DeleteFile(db: Db, fileId: Id) returns (code: int)
    requires db.Valid()
    modifies db`files, db`blobs
    ensures db.Valid()
    ensures fileId !in old(db.files) ==> code == NotFound && db.Model() == old(db.Model())
    ensures fileId in old(db.files) ==>
              && code == OK
              && db.Model() == old(db.Model()).(files := old(db.files) - {fileId},
                                                blobs := old(db.blobs) - {old(db.files[fileId].filepath)})
  {
    if fileId !in db.files {
      return NotFound;
    }
    var file := db.files[fileId];
    db.blobs := db.blobs - {file.filepath};
    db.files := db.files - {fileId};
    return OK;
  }

  /** Deleting a file keeps every other record's copy on disk. */
  lemma DeleteKeepsFilesOnDisk(s: State, id: Id)
    requires FilesOnDisk(s) && id in s.files
    ensures FilesOnDisk(s.(files := s.files - {id}, blobs := s.blobs - {s.files[id].filepath}))
  {
  }

  /** Uploading and then deleting the new record gives back the records and disk that were
      there before. */
  lemma UploadThenDelete(s: State, id: Id, rec: FileRecord)
    requires id !in s.files && rec.filepath !in s.blobs
    ensures var t := s.(blobs := s.blobs + {rec.filepath}, files := s.files[id := rec]);
            t.files - {id} == s.files && t.blobs - {t.files[id].filepath} == s.blobs
  {
  }
}

=== FILE: message_controller.dfy ===
/** backend/controllers/messageController.js: the contact form's messages, sent by any
    signed-in user and listed or deleted by an administrator. */
module MessageController {
  import opened Common
  import opened Store

  /** sendMessage: 400 unless both subject and message are given; otherwise one new entry
      from the caller. */
  method SendContactMessage(db: Db, actor: Id, subject: string, message: string)
    returns (code: int, created: Option<Id>)
    requires db.Valid()
    modifies db`messages, db`nextId
    ensures db.Valid()
    ensures subject == "" || message == "" ==>
              code == BadRequest && created.None? && db.Model() == old(db.Model())
    ensures subject != "" && message != "" ==>
              && code == Created && created == Some(old(db.nextId))
              && db.messages == old(db.messages)[old(db.nextId) := ContactMessage(actor, subject, message)]
              && db.nextId == old(db.nextId) + 1
  {
    if subject == "" || message == "" {
      return BadRequest, None;
    }
    var id := db.CreateMessage(ContactMessage(actor, subject, message));
    return Created, Some(id);
  }

  /** getMessages: every stored entry, in the order they were sent. Populating the sender
      never drops an entry: a sender whose account is gone shows as null. */
  method GetContactMessages(db: Db) returns (code: int, r: seq<Id>)
    requires db.Valid()
    ensures code == OK
    ensures forall k :: k in r <==> k in db.messages
    ensures forall i, j :: 0 <= i < j < |r| ==> r[i] < r[j]
  {
    return OK, Matching(db.messages, (m: ContactMessage) => true, db.nextId);
  }

  /** deleteMessage: 404 for an unknown id; otherwise that entry alone is removed. */
  method DeleteContactMessage(db: Db, id: Id) returns (code: int)
    requires db.Valid()
    modifies db`messages
    ensures db.Valid()
    ensures id !in old(db.messages) ==> code == NotFound && db.Model() == old(db.Model())
    ensures id in old(db.messages) ==>
              code == OK && db.Model() == old(db.Model()).(messages := old(db.messages) - {id})
  {
    if id !in db.messages {
      return NotFound;
    }
    db.messages := db.messages - {id};
    return OK;
  }

  /** Deleting the entry just sent gives back the entries there were before. */
  lemma SendThenDelete(messages: map<Id, ContactMessage>, id: Id, entry: ContactMessage)
    requires id !in messages
    ensures messages[id := entry] - {id} == messages
    ensures id in messages[id := entry]
  {
  }
}

=== FILE: notification_controller.dfy ===
/** backend/controllers/notificationController.js: creating a notification, listing the
    caller's newest first, and marking one read, which also schedules its deletion. The
    30-second timer is a queue of pending deletions (`sweeps`) that `RunSweep` works off
    one at a time, in the order they were scheduled. */
module NotificationController {
  import opened Common
  import opened Store

  /** How many notifications `getNotifications` returns at most. */
  const Limit: nat := 50

  /** createNotification: one new unread notification for `userId`. */
  method CreateNotification(db: Db, userId: Id, message: string, now: int) returns (code: int, id: Id)
    requires db.Valid()
    modifies db`notifications, db`nextId
    ensures db.Valid()
    ensures code == Created && id !in old(db.notifications)
    ensures db.Model() == old(db.Model()).(
              notifications := old(db.notifications)[id := Notification(userId, message, false, now)],
              nextId := id + 1)
  {
    id := db.Notify(userId, message, now);
    code := Created;
  }

  /** A notification id with its creation time, the field the listing sorts on. */
  type Stamped = (Id, int)

  /** Newest first. */
  predicate Descending(es: seq<Stamped>)
  {
    forall i, j :: 0 <= i < j < |es| ==> es[i].1 >= es[j].1
  }

  /** Places `x` in a newest-first list, after every entry at least as new. */
  function InsertByTime(x: Stamped, es: seq<Stamped>): (r: seq<Stamped>)
    ensures |r| == |es| + 1
    ensures multiset(r) == multiset(es) + multiset{x}
    decreases |es|
  {
    if es == [] then [x]
    else if es[0].1 >= x.1 then
      assert es == [es[0]] + es[1..];
      [es[0]] + InsertByTime(x, es[1..])
    else [x] + es
  }

  /** Inserting into a newest-first list keeps it newest first. */
  lemma {:induction false} InsertKeepsDescending(x: Stamped, es: seq<Stamped>)
    requires Descending(es)
    ensures Descending(InsertByTime(x, es))
    decreases |es|
  {
    if es != [] && es[0].1 >= x.1 {
      var rest := InsertByTime(x, es[1..]);
      InsertKeepsDescending(x, es[1..]);
      forall k | 0 <= k < |rest|
        ensures es[0].1 >= rest[k].1
      {
        assert rest[k] in multiset(es[1..]) + multiset{x};
        if rest[k] != x {
          assert rest[k] in es[1..];
        }
      }
    }
  }

  /** `.sort({ createdAt: -1 })`: the same entries, newest first; equally old ones keep
      their order. */
  function SortByTime(es: seq<Stamped>): (r: seq<Stamped>)
    ensures Descending(r)
    ensures multiset(r) == multiset(es)
    decreases |es|
  {
    if es == [] then []
    else
      var n := |es| - 1;
      assert es == es[..n] + [es[n]];
      InsertKeepsDescending(es[n], SortByTime(es[..n]));
      InsertByTime(es[n], SortByTime(es[..n]))
  }

  /** In a newest-first list, an entry past the first `n` is no newer than any of them. */
  lemma NewestKept(sorted: seq<Stamped>, n: nat, e: Stamped)
    requires Descending(sorted) && n <= |sorted|
    requires e in sorted && e !in sorted[..n]
    ensures forall i :: 0 <= i < n ==> sorted[i].1 >= e.1
  {
    var j :| 0 <= j < |sorted| && sorted[j] == e;
    assert j >= n;
  }

  /** `.sort({ createdAt: -1 }).limit(50)`: the newest entries, newest first; whatever
      is cut off is no newer than anything kept, and is cut only from a full page. */
  function Latest(es: seq<Stamped>): (r: seq<Stamped>)
    ensures |r| <= Limit && Descending(r)
    ensures multiset(r) <= multiset(es)
    ensures forall e :: e in es && e !in r ==> |r| == Limit && forall i :: 0 <= i < |r| ==> r[i].1 >= e.1
  {
    var sorted := SortByTime(es);
    var r := if |sorted| <= Limit then sorted else sorted[..Limit];
    LatestCut(es, sorted, r);
    r
  }

  /** The cut keeps a prefix of the sorted entries, so all it drops is no newer than what
      it keeps. */
  lemma LatestCut(es: seq<Stamped>, sorted: seq<Stamped>, r: seq<Stamped>)
    requires Descending(sorted) && multiset(sorted) == multiset(es)
    requires r == (if |sorted| <= Limit then sorted else sorted[..Limit])
    ensures multiset(r) <= multiset(es)
    ensures forall e :: e in es && e !in r ==> |r| == Limit && forall i :: 0 <= i < |r| ==> r[i].1 >= e.1
  {
    assert sorted == r + sorted[|r|..];
    forall e | e in es && e !in r
      ensures |r| == Limit && forall i :: 0 <= i < |r| ==> r[i].1 >= e.1
    {
      assert e in multiset(sorted);
      NewestKept(sorted, |r|, e);
    }
  }

  /** The caller's notifications, each with its creation time, in insertion order. */
  function StampedOf(m: map<Id, Notification>, ids: seq<Id>): (r: seq<Stamped>)
    requires forall i :: 0 <= i < |ids| ==> ids[i] in m
    ensures |r| == |ids|
    ensures forall i :: 0 <= i < |r| ==> r[i] == (ids[i], m[ids[i]].createdAt)
  {
    seq(|ids|, i requires 0 <= i < |ids| => (ids[i], m[ids[i]].createdAt))
  }

  /** The page of the listing: taken from the caller's notifications in ascending id order,
      it holds each of them at most once, each with its own time, and leaves one out only
      when the page is full of notifications at least as new. */
  lemma PageOfOwn(m: map<Id, Notification>, actor: Id, hi: nat, mine: seq<Id>)
    requires forall k :: k in m ==> k < hi
    requires forall k :: k in mine <==> k < hi && k in m && m[k].user == actor
    requires forall i, j :: 0 <= i < j < |mine| ==> mine[i] < mine[j]
    ensures var r := Latest(StampedOf(m, mine));
            && (forall i, j :: 0 <= i < j < |r| ==> r[i].0 != r[j].0)
            && (forall i :: 0 <= i < |r| ==> r[i].0 in m && m[r[i].0].user == actor && r[i].1 == m[r[i].0].createdAt)
            && (forall k :: (k in m && m[k].user == actor && (k, m[k].createdAt) !in r) ==>
                  |r| == Limit && forall i :: 0 <= i < |r| ==> r[i].1 >= m[k].createdAt)
  {
    var es := StampedOf(m, mine);
    var r := Latest(es);
    forall i | 0 <= i < |r|
      ensures r[i].0 in m && m[r[i].0].user == actor && r[i].1 == m[r[i].0].createdAt
    {
      assert r[i] in multiset(es);
    }
    forall k | k in m && m[k].user == actor
      ensures (k, m[k].createdAt) in es
    {
      var j :| 0 <= j < |mine| && mine[j] == k;
      assert es[j] == (k, m[k].createdAt);
    }
    forall i, j | 0 <= i < j < |es|
      ensures es[i] != es[j]
    {
      assert es[i].0 == mine[i] < mine[j] == es[j].0;
    }
    SubDistinct(r, es);
    forall i, j | 0 <= i < j < |r|
      ensures r[i].0 != r[j].0
    {
      assert r[i] != r[j];
    }
  }

  /** getNotifications: only the caller's notifications, each with its creation time,
      newest first, at most 50 of them; one is left out only when the page is full of
      notifications at least as new. */
  method GetNotifications(db: Db, actor: Id) returns (code: int, r: seq<Stamped>)
    requires db.Valid()
    ensures code == OK && |r| <= Limit && Descending(r)
    ensures forall i, j :: 0 <= i < j < |r| ==> r[i].0 != r[j].0
    ensures forall i :: 0 <= i < |r| ==>
              && r[i].0 in db.notifications && db.notifications[r[i].0].user == actor
              && r[i].1 == db.notifications[r[i].0].createdAt
    ensures forall k :: (k in db.notifications && db.notifications[k].user == actor
                         && (k, db.notifications[k].createdAt) !in r) ==>
              |r| == Limit && forall i :: 0 <= i < |r| ==> r[i].1 >= db.notifications[k].createdAt
  {
    var mine := Matching(db.notifications, (n: Notification) => n.user == actor, db.nextId);
    r := Latest(StampedOf(db.notifications, mine));
    PageOfOwn(db.notifications, actor, db.nextId, mine);
    code := OK;
  }

  /** The notifications once `id` is marked read (`findByIdAndUpdate(id, { read: true })`). */
  function MarkRead(m: map<Id, Notification>, id: Id): (r: map<Id, Notification>)
    ensures r.Keys == m.Keys
    ensures id in m ==> r[id] == m[id].(read := true)
    ensures forall k :: k in m && k != id ==> r[k] == m[k]
  {
    if id in m then m[id := m[id].(read := true)] else m
  }

  /** Marking a notification read a second time changes nothing more. */
  lemma MarkReadIdempotent(m: map<Id, Notification>, id: Id)
    ensures MarkRead(MarkRead(m, id), id) == MarkRead(m, id)
  {
  }

  /** markAsRead: 404 for an unknown id; otherwise the flag is set, on anyone's
      notification, and its deletion is scheduled. */
  method MarkAsRead(db: Db, id: Id) returns (code: int)
    requires db.Valid()
    modifies db`notifications, db`sweeps
    ensures db.Valid()
    ensures id !in old(db.notifications) ==> code == NotFound && db.Model() == old(db.Model())
    ensures id in old(db.notifications) ==>
              && code == OK
              && db.Model() == old(db.Model()).(notifications := MarkRead(old(db.notifications), id),
                                                sweeps := old(db.sweeps) + [id])
  {
    if id !in db.notifications {
      return NotFound;
    }
    db.notifications := MarkRead(db.notifications, id);
    db.sweeps := db.sweeps + [id];
    return OK;
  }

  /** What the timer's callback does to the notifications: delete `id` if it is still
      there. */
  function Swept(m: map<Id, Notification>, id: Id): (r: map<Id, Notification>)
    ensures id !in r
    ensures forall k :: k != id ==> (k in r <==> k in m)
    ensures forall k :: k in r ==> r[k] == m[k]
  {
    if id in m then m - {id} else m
  }

  /** A second sweep of the same id finds nothing and changes nothing. */
  lemma SweptTwice(m: map<Id, Notification>, id: Id)
    ensures Swept(Swept(m, id), id) == Swept(m, id)
  {
  }

  /** Marking read and then sweeping removes exactly that notification. */
  lemma MarkThenSweep(m: map<Id, Notification>, id: Id)
    ensures Swept(MarkRead(m, id), id) == m - {id}
  {
  }

  /** The next scheduled deletion fires: the first pending id is taken off the queue and
      its notification removed if it is still stored. */
  method RunSweep(db: Db)
    requires db.Valid()
    modifies db`notifications, db`sweeps
    ensures db.Valid()
    ensures old(db.sweeps) == [] ==> db.Model() == old(db.Model())
    ensures old(db.sweeps) != [] ==>
              db.Model() == old(db.Model()).(notifications := Swept(old(db.notifications), old(db.sweeps[0])),
                                             sweeps := old(db.sweeps[1..]))
  {
    if db.sweeps == [] {
      return;
    }
    var id := db.sweeps[0];
    db.sweeps := db.sweeps[1..];
    if id in db.notifications {
      db.notifications := db.notifications - {id};
    }
  }
}

=== FILE: project_controller.dfy ===
/** backend/controllers/projectController.js: creating projects, listing the caller's,
    adding team members, deleting and editing, as transitions of the store. */
module ProjectController {
  import opened Common
  import opened Store

  /** `Project.findOne({ name })`. */
  function ProjectNamed(s: State, name: string): Option<Id>
  {
    FindFirst(s.projects, (p: Project) => p.name == name, 0, s.nextId)
  }

  /** `User.findOne({ name })`. */
  function UserNamed(s: State, name: string): Option<Id>
  {
    FindFirst(s.users, (u: User) => u.name == name, 0, s.nextId)
  }

  /** What `addTeamMember` tells the new member. */
  function AddedNotice(projectName: string): string
  {
    "You were added to project: " + projectName
  }

  /** The status createProject answers with: 400 without a deadline (line 10), 500 when
      `Project.create` rejects an empty name (the catch of lines 16-18), 201 otherwise. */
  function CreateProjectCode(name: string, deadline: Option<int>): (code: int)
    ensures code == Created <==> deadline.Some? && name != ""
    ensures code == BadRequest <==> deadline.None?
  {
    if deadline.None? then BadRequest
    else if name == "" then ServerError
    else Created
  }

  /** createProject: a missing deadline is refused; otherwise the caller owns the new
      project and is its only member. An empty name fails the schema's `required`. */
  method CreateProject(db: Db, actor: Id, name: string, description: string,
                       deadline: Option<int>) returns (code: int, created: Option<Id>)
    requires db.Valid()
    modifies db
    ensures db.Valid()
    ensures code == CreateProjectCode(name, deadline)
    ensures deadline.None? ==> code == BadRequest && created.None? && db.Model() == old(db.Model())
    ensures deadline.Some? && name == "" ==>
              code == ServerError && created.None? && db.Model() == old(db.Model())
    ensures deadline.Some? && name != "" ==>
              && code == Created && created == Some(old(db.nextId))
              && created.value !in old(db.projects)
              && db.Model() == old(db.Model()).(
                   projects := old(db.projects)[created.value :=
                                 Project(name, description, actor, [actor], deadline.value)],
                   nextId := old(db.nextId) + 1)
    ensures old(db.Model().OwnersInTeams()) ==> db.Model().OwnersInTeams()
  {
    if deadline.None? {
      return BadRequest, None;
    }
    if name == "" {
      return ServerError, None;
    }
    var id := db.NewId();
    db.projects := db.projects[id := Project(name, description, actor, [actor], deadline.value)];
    return Created, Some(id);
  }

  /** getProjects: the projects whose team holds the caller, in insertion order; 401 when
      no caller is signed in. */
  method GetProjects(db: Db, actor: Option<Id>) returns (code: int, ids: seq<Id>)
    requires db.Valid()
    ensures actor.None? ==> code == Unauthorized && ids == []
    ensures actor.Some? ==> code == OK
    ensures forall p :: p in ids <==> actor.Some? && p in db.projects && actor.value in db.projects[p].team
    ensures forall i, j :: 0 <= i < j < |ids| ==> ids[i] < ids[j]
  {
    if actor.None? {
      return Unauthorized, [];
    }
    return OK, Matching(db.projects, (p: Project) => actor.value in p.team, db.nextId);
  }

  /** addTeamMember: looks the project and the user up by name; refuses a user already on
      the team; otherwise appends the user to the team and notifies them. Nothing checks
      that the caller belongs to the project. */
  method AddTeamMember(db: Db, projectName: string, userName: string, now: int) returns (code: int)
    requires db.Valid()
    modifies db
    ensures db.Valid()
    ensures var s := old(db.Model());
            ProjectNamed(s, projectName).None? || UserNamed(s, userName).None? ==>
              code == NotFound && db.Model() == s
    ensures var s := old(db.Model());
            var pid, uid := ProjectNamed(s, projectName), UserNamed(s, userName);
            pid.Some? && uid.Some? && uid.value in s.projects[pid.value].team ==>
              code == BadRequest && db.Model() == s
    ensures var s := old(db.Model());
            var pid, uid := ProjectNamed(s, projectName), UserNamed(s, userName);
            pid.Some? && uid.Some? && uid.value !in s.projects[pid.value].team ==>
              var p := s.projects[pid.value];
              && code == OK
              && db.Model() == s.(
                   projects := s.projects[pid.value := p.(team := p.team + [uid.value])],
                   notifications := s.notifications[s.nextId :=
                                      Notification(uid.value, AddedNotice(p.name), false, now)],
                   nextId := s.nextId + 1)
    ensures old(db.Model().OwnersInTeams()) ==> db.Model().OwnersInTeams()
  {
    var pid := ProjectNamed(db.Model(), projectName);
    if pid.None? {
      return NotFound;
    }
    var uid := UserNamed(db.Model(), userName);
    if uid.None? {
      return NotFound;
    }
    var p := db.projects[pid.value];
    if uid.value in p.team {
      return BadRequest;
    }
    db.projects := db.projects[pid.value := p.(team := p.team + [uid.value])];
    var _ := db.Notify(uid.value, AddedNotice(p.name), now);
    return OK;
  }

  /** The guard of deleteProject (lines 88-95): the project exists and the caller owns it. */
  predicate MayDeleteProject(s: State, actor: Id, id: Id)
  {
    id in s.projects && s.projects[id].owner == actor
  }

  /** deleteProject: only the owner may delete; only the project document goes (its
      tasks, chat and files stay). */
  method DeleteProject(db: Db, actor: Id, id: Id) returns (code: int)
    requires db.Valid()
    modifies db
    ensures db.Valid()
    ensures code == OK <==> MayDeleteProject(old(db.Model()), actor, id)
    ensures id !in old(db.projects) ==> code == NotFound && db.Model() == old(db.Model())
    ensures id in old(db.projects) && !MayDeleteProject(old(db.Model()), actor, id) ==>
              code == Forbidden && db.Model() == old(db.Model())
    ensures MayDeleteProject(old(db.Model()), actor, id) ==>
              db.Model() == old(db.Model()).(projects := old(db.projects) - {id})
    ensures old(db.Model().OwnersInTeams()) ==> db.Model().OwnersInTeams()
  {
    if id !in db.projects {
      return NotFound;
    }
    if db.projects[id].owner != actor {
      return Forbidden;
    }
    db.projects := db.projects - {id};
    return OK;
  }

  /** updateProjectDetails: the owner may overwrite name, description and deadline; an
      empty (falsy) value leaves its field as it was. Owner and team never change. */
  method UpdateProjectDetails(db: Db, actor: Id, id: Id, name: string, description: string,
                              deadline: Option<int>) returns (code: int)
    requires db.Valid()
    modifies db
    ensures db.Valid()
    ensures id !in old(db.projects) ==> code == NotFound && db.Model() == old(db.Model())
    ensures id in old(db.projects) && old(db.projects[id].owner) != actor ==>
              code == Forbidden && db.Model() == old(db.Model())
    ensures id in old(db.projects) && old(db.projects[id].owner) == actor ==>
              var p := old(db.projects[id]);
              && code == OK
              && id in db.projects
              && db.Model() == old(db.Model()).(projects := old(db.projects)[id := db.projects[id]])
              && db.projects[id].owner == p.owner && db.projects[id].team == p.team
              && db.projects[id].name == (if name != "" then name else p.name)
              && db.projects[id].description == (if description != "" then description else p.description)
              && db.projects[id].deadline == (if deadline.Some? then deadline.value else p.deadline)
    ensures old(db.Model().OwnersInTeams()) ==> db.Model().OwnersInTeams()
  {
    if id !in db.projects {
      return NotFound;
    }
    var p := db.projects[id];
    if p.owner != actor {
      return Forbidden;
    }
    if name != "" {
      p := p.(name := name);
    }
    if description != "" {
      p := p.(description := description);
    }
    if deadline.Some? {
      p := p.(deadline := deadline.value);
    }
    db.projects := db.projects[id := p];
    return OK;
  }
}

=== FILE: project_dashboard.dfy ===
/** frontend/src/components/ProjectDashboard.jsx: the charts of a project's tasks. Both
    charts count keys with `reduce` into a plain object and read it back with `Object.keys`
    and `Object.values`. */
module ProjectDashboard {
  import opened Common
  import opened Text

  /** What the page reads of a task: its status and its due date as the JSON text the server
      sends, if it has one. */
  datatype TaskView = TaskView(status: string, dueDate: Option<string>)

  /** A counting object as `Object.keys` and `Object.values` list it: keys in insertion
      order, each value at its key's index. */
  datatype Counter = Counter(labels: seq<string>, values: seq<nat>)

  function Sum(s: seq<nat>): nat
    decreases |s|
  {
    if s == [] then 0 else Sum(s[..|s| - 1]) + s[|s| - 1]
  }

  /** Adding one to an entry adds one to the sum. */
  lemma {:induction false} SumBump(s: seq<nat>, i: nat)
    requires i < |s|
    ensures Sum(s[i := s[i] + 1]) == Sum(s) + 1
    decreases |s|
  {
    var n := |s| - 1;
    if i < n {
      assert s[i := s[i] + 1][..n] == s[..n][i := s[i] + 1];
      SumBump(s[..n], i);
    } else {
      assert s[i := s[i] + 1][..n] == s[..n];
    }
  }

  /** The index of the first occurrence of `k` in `ks`. */
  function First(ks: seq<string>, k: string): (r: nat)
    requires k in ks
    ensures r < |ks| && ks[r] == k && k !in ks[..r]
    decreases |ks|
  {
    if ks[0] == k then 0
    else
      var r := First(ks[1..], k);
      assert ks[..r + 1] == [ks[0]] + ks[1..][..r];
      r + 1
  }

  /** The first occurrence is the only index holding `k` with no `k` before it. */
  lemma FirstUnique(ks: seq<string>, k: string, r: nat)
    requires r < |ks| && ks[r] == k && k !in ks[..r]
    ensures First(ks, k) == r
  {
  }

  /** Appending to a sequence leaves the first occurrences already in it where they are. */
  lemma FirstOfPrefix(ks: seq<string>, x: string, k: string)
    requires k in ks
    ensures First(ks + [x], k) == First(ks, k)
  {
    var f := First(ks, k);
    assert (ks + [x])[..f] == ks[..f];
    FirstUnique(ks + [x], k, f);
  }

  /** One step of the fold: `acc[k] = (acc[k] || 0) + 1`. An existing key keeps its place
      and gains one; a new key is added last with one. */
  function Bump(c: Counter, k: string): (r: Counter)
    requires |c.labels| == |c.values|
    ensures |r.labels| == |r.values|
  {
    if k in c.labels then
      var i := First(c.labels, k);
      Counter(c.labels, c.values[i := c.values[i] + 1])
    else Counter(c.labels + [k], c.values + [1])
  }

  /** `ks.reduce(...)` from an empty object. */
  function Tally(ks: seq<string>): (c: Counter)
    ensures |c.labels| == |c.values|
    decreases |ks|
  {
    if ks == [] then Counter([], []) else Bump(Tally(ks[..|ks| - 1]), ks[|ks| - 1])
  }

  /** The labels are the distinct keys, each once, in the order of their first appearance. */
  lemma {:induction false} TallyLabels(ks: seq<string>)
    ensures forall k :: k in Tally(ks).labels <==> k in ks
    ensures forall i, j :: 0 <= i < j < |Tally(ks).labels| ==> Tally(ks).labels[i] != Tally(ks).labels[j]
    ensures forall i, j :: 0 <= i < j < |Tally(ks).labels| ==>
              First(ks, Tally(ks).labels[i]) < First(ks, Tally(ks).labels[j])
    decreases |ks|
  {
    if ks != [] {
      var n := |ks| - 1;
      var p, x := ks[..n], ks[n];
      assert ks == p + [x];
      TallyLabels(p);
      var c := Tally(p);
      forall l | l in p
        ensures First(ks, l) == First(p, l)
      {
        FirstOfPrefix(p, x, l);
      }
      if x !in c.labels {
        FirstUnique(ks, x, n);
      }
    }
  }

  /** Each value is the number of times its label occurs among the keys. */
  lemma {:induction false} TallyValues(ks: seq<string>)
    ensures forall i :: 0 <= i < |Tally(ks).labels| ==> Tally(ks).values[i] == multiset(ks)[Tally(ks).labels[i]]
    decreases |ks|
  {
    if ks != [] {
      var n := |ks| - 1;
      var p, x := ks[..n], ks[n];
      assert ks == p + [x];
      assert multiset(ks) == multiset(p) + multiset{x};
      TallyValues(p);
      TallyLabels(p);
    }
  }

  /** The values add up to the number of keys. */
  lemma {:induction false} TallySum(ks: seq<string>)
    ensures Sum(Tally(ks).values) == |ks|
    decreases |ks|
  {
    if ks != [] {
      var n := |ks| - 1;
      var c := Tally(ks[..n]);
      assert Tally(ks) == Bump(c, ks[n]);
      TallySum(ks[..n]);
      if ks[n] in c.labels {
        SumBump(c.values, First(c.labels, ks[n]));
      } else {
        var v := c.values + [1];
        assert v[..|v| - 1] == c.values;
        assert Sum(v) == Sum(c.values) + 1;
      }
    }
  }

  function Statuses(tasks: seq<TaskView>): (r: seq<string>)
    ensures |r| == |tasks| && forall i :: 0 <= i < |tasks| ==> r[i] == tasks[i].status
  {
    seq(|tasks|, i requires 0 <= i < |tasks| => tasks[i].status)
  }

  /** The number of times a status occurs among the keys is the number of tasks with it. */
  lemma {:induction false} StatusOccurrences(tasks: seq<TaskView>, s: string)
    ensures multiset(Statuses(tasks))[s] == |Filter(tasks, (t: TaskView) => t.status == s)|
    decreases |tasks|
  {
    if tasks != [] {
      assert Statuses(tasks) == [tasks[0].status] + Statuses(tasks[1..]);
      StatusOccurrences(tasks[1..], s);
    }
  }

  /** statusCounts and the pie chart (lines 29-36): one label per distinct status in order
      of first appearance, each with the number of tasks in that status, adding up to the
      number of tasks. */
  lemma StatusChart(tasks: seq<TaskView>)
    ensures var c := Tally(Statuses(tasks));
            && (forall s :: s in c.labels <==> exists i :: 0 <= i < |tasks| && tasks[i].status == s)
            && (forall i, j :: 0 <= i < j < |c.labels| ==> c.labels[i] != c.labels[j])
            && (forall i :: 0 <= i < |c.labels| ==>
                  c.values[i] == |Filter(tasks, (t: TaskView) => t.status == c.labels[i])|)
            && Sum(c.values) == |tasks|
  {
    var ks := Statuses(tasks);
    TallyLabels(ks);
    TallyValues(ks);
    TallySum(ks);
    var c := Tally(ks);
    forall i | 0 <= i < |c.labels|
      ensures c.values[i] == |Filter(tasks, (t: TaskView) => t.status == c.labels[i])|
    {
      StatusOccurrences(tasks, c.labels[i]);
    }
    forall s
      ensures s in c.labels <==> exists i :: 0 <= i < |tasks| && tasks[i].status == s
    {
      if s in ks {
        var i :| 0 <= i < |ks| && ks[i] == s;
        assert tasks[i].status == s;
      }
    }
  }

  /** `task.dueDate?.split("T")[0]` used as a key (line 39): the date before the first 'T',
      and for a task with no due date the key "undefined". */
  function DueKey(dueDate: Option<string>): (r: string)
    ensures dueDate.None? ==> r == "undefined"
    ensures dueDate.Some? ==>
              && 'T' !in r && |r| <= |dueDate.value| && r == dueDate.value[..|r|]
              && (|r| == |dueDate.value| || dueDate.value[|r|] == 'T')
  {
    match dueDate
    case None => "undefined"
    case Some(d) =>
      var parts := Split(d, 'T');
      assert parts == [parts[0]] + parts[1..];
      JoinCons(parts[0], parts[1..], "T");
      parts[0]
  }

  function DueKeys(tasks: seq<TaskView>): (r: seq<string>)
    ensures |r| == |tasks| && forall i :: 0 <= i < |tasks| ==> r[i] == DueKey(tasks[i].dueDate)
  {
    seq(|tasks|, i requires 0 <= i < |tasks| => DueKey(tasks[i].dueDate))
  }

  /** dueDateCounts and the line chart (lines 39-46): one label per distinct date, each
      counted as often as it occurs, adding up to the number of tasks; every task without a
      due date is counted under the one label "undefined". */
  lemma DueDateChart(tasks: seq<TaskView>)
    ensures var c := Tally(DueKeys(tasks));
            && (forall i, j :: 0 <= i < j < |c.labels| ==> c.labels[i] != c.labels[j])
            && (forall i :: 0 <= i < |c.labels| ==> c.values[i] == multiset(DueKeys(tasks))[c.labels[i]])
            && Sum(c.values) == |tasks|
            && ((exists i :: 0 <= i < |tasks| && tasks[i].dueDate.None?) ==> "undefined" in c.labels)
  {
    var ks := DueKeys(tasks);
    TallyLabels(ks);
    TallyValues(ks);
    TallySum(ks);
    if exists i :: 0 <= i < |tasks| && tasks[i].dueDate.None? {
      var i :| 0 <= i < |tasks| && tasks[i].dueDate.None?;
      assert ks[i] == "undefined";
    }
  }
}

=== FILE: projects_page.dfy ===
/** frontend/src/pages/Projects.jsx: the list of the user's projects, its search box, and
    the two forms that create a project and add a team member. */
module ProjectsPage {
  import opened Common
  import opened Text
  import opened Store
  import opened ProjectController

  /** A project as the page receives it: the server populates the team (a member whose
      user document is gone is dropped) and leaves the owner as an id. */
  datatype ProjectView = ProjectView(id: Id, name: string, owner: Id, team: seq<Id>)

  function ViewOf(users: map<Id, User>, id: Id, p: Project): ProjectView
  {
    ProjectView(id, p.name, p.owner, Populated(users, p.team))
  }

  /** The projects stored under `ids`, as the server sends them. */
  function Views(users: map<Id, User>, projects: map<Id, Project>, ids: seq<Id>): (r: seq<ProjectView>)
    requires forall i :: 0 <= i < |ids| ==> ids[i] in projects
    ensures |r| == |ids| && forall i :: 0 <= i < |ids| ==> r[i] == ViewOf(users, ids[i], projects[ids[i]])
  {
    seq(|ids|, i requires 0 <= i < |ids| => ViewOf(users, ids[i], projects[ids[i]]))
  }

  /** fetchProjects (line 44): the projects whose team lists the current user. */
  function MyProjects(ps: seq<ProjectView>, me: Id): (r: seq<ProjectView>)
    ensures forall p :: p in r <==> p in ps && me in p.team
  {
    Filter(ps, (p: ProjectView) => me in p.team)
  }

  /** The server already answers with the caller's projects only, so for a caller whose
      account exists the page's filter keeps the whole answer, in its order. */
  lemma MyProjectsKeepsServerList(users: map<Id, User>, projects: map<Id, Project>, ids: seq<Id>, me: Id)
    requires me in users
    requires forall i :: 0 <= i < |ids| ==> ids[i] in projects && me in projects[ids[i]].team
    ensures MyProjects(Views(users, projects, ids), me) == Views(users, projects, ids)
  {
    var vs := Views(users, projects, ids);
    FilterKeepsAll(vs, (p: ProjectView) => me in p.team);
  }

  /** The search test: the lower-cased name contains the lower-cased query. */
  predicate NameMatches(p: ProjectView, query: string)
  {
    Contains(ToLower(p.name), ToLower(query))
  }

  /** handleSearch (lines 52-56): the projects whose name contains the query, ignoring
      case, in list order; it always searches the full list, never the previous result. */
  function Search(ps: seq<ProjectView>, query: string): (r: seq<ProjectView>)
    ensures forall p :: p in r <==> p in ps && exists i: nat :: OccursAt(ToLower(p.name), ToLower(query), i)
  {
    forall p | p in ps
      ensures NameMatches(p, query) <==> exists i: nat :: OccursAt(ToLower(p.name), ToLower(query), i)
    {
      ContainsIffOccurs(ToLower(p.name), ToLower(query));
    }
    Filter(ps, (p: ProjectView) => NameMatches(p, query))
  }

  /** An empty query shows every project. */
  lemma EmptySearchKeepsAll(ps: seq<ProjectView>)
    ensures Search(ps, "") == ps
  {
    forall p | p in ps
      ensures NameMatches(p, "")
    {
      ContainsAt(ToLower(p.name), "", 0);
    }
    FilterKeepsAll(ps, (p: ProjectView) => NameMatches(p, ""));
  }

  /** Searching a result again for the same query changes nothing. */
  lemma SearchIdempotent(ps: seq<ProjectView>, query: string)
    ensures Search(Search(ps, query), query) == Search(ps, query)
  {
    var r := Search(ps, query);
    FilterKeepsAll(r, (p: ProjectView) => NameMatches(p, query));
  }

  /** The search keeps the list's order: it works on each part separately. */
  lemma SearchKeepsOrder(a: seq<ProjectView>, b: seq<ProjectView>, query: string)
    ensures Search(a + b, query) == Search(a, query) + Search(b, query)
  {
    FilterConcat(a, b, (p: ProjectView) => NameMatches(p, query));
  }

  /** The body of the creation request. */
  datatype ProjectRequest = ProjectRequest(name: string, description: string, deadline: string)

  /** createProject (lines 74-89): nothing is sent unless someone is logged in and name,
      description and deadline are all filled in. */
  function CreateProjectRequest(user: Option<Id>, name: string, description: string, deadline: string)
    : (r: Option<ProjectRequest>)
    ensures r.None? <==> user.None? || name == "" || description == "" || deadline == ""
    ensures r.Some? ==> r.value == ProjectRequest(name, description, deadline)
  {
    if user.None? || name == "" || description == "" || deadline == "" then None
    else Some(ProjectRequest(name, description, deadline))
  }

  /** Every creation request the page sends has a name and a deadline. The deadline comes
      from a date input, whose value is either empty or a valid date, so a sent request
      carries a date the server can read; createProject then creates the project rather
      than answering 400 or the empty-name 500. `deadline` stands for the time that
      `new Date(deadlineText)` gives; reading the date text is not modelled (times are
      integers throughout). */
  lemma CreateRequestAccepted(user: Option<Id>, name: string, description: string, deadlineText: string,
                              deadline: int)
    requires CreateProjectRequest(user, name, description, deadlineText).Some?
    ensures var req := CreateProjectRequest(user, name, description, deadlineText).value;
            req.name != "" && CreateProjectCode(req.name, Some(deadline)) == Created
  {
  }

  /** The body of the request that adds a member: the project's name and the user's name. */
  datatype MemberRequest = MemberRequest(projectName: string, userName: string)

  /** addTeamMember (lines 106-119): nothing is sent unless someone is logged in and both a
      project and a user are chosen. */
  function AddMemberRequest(user: Option<Id>, projectName: string, selectedUser: string): (r: Option<MemberRequest>)
    ensures r.None? <==> user.None? || projectName == "" || selectedUser == ""
    ensures r.Some? ==> r.value == MemberRequest(projectName, selectedUser)
  {
    if user.None? || projectName == "" || selectedUser == "" then None
    else Some(MemberRequest(projectName, selectedUser))
  }

  /** The delete button (line 185) is shown to a logged-in user who owns the project. */
  predicate ShowDelete(user: Option<Id>, p: ProjectView)
  {
    user.Some? && p.owner == user.value
  }

  /** The owner stays an id in the server's answer, so the button is shown to exactly the
      user the server lets delete the project. */
  lemma ShowDeleteMatchesServer(s: State, id: Id, me: Option<Id>)
    requires id in s.projects
    ensures ShowDelete(me, ViewOf(s.users, id, s.projects[id])) <==> me.Some? && MayDeleteProject(s, me.value, id)
  {
  }
}

=== FILE: store.dfy ===
/** The document store the backend controllers work on: one record type per Mongoose
    model, one collection per model, and the `Db` object that holds the collections and
    that every handler changes in place. */
module Store {
  import opened Common
  import Text

  /** A document id. The model hands ids out from one counter, in creation order, so
      ascending id order is the order in which documents were inserted, which is the
      order an unsorted `find` or `findOne` visits them in. */
  type Id = nat

  /** The text `_id.toString()` gives for an id (rendered in decimal by this model). */
  function IdText(id: Id): string
  {
    Text.NatToString(id)
  }

  /** Casting a request's text to an id, as a query or a create does before it touches the
      store: only an id's text (here a non-empty run of decimal digits) casts; anything
      else, the empty text included, is a cast error. */
  function CastId(t: string): (r: Option<Id>)
    ensures t == "" ==> r.None?
    ensures r.Some? <==> |t| >= 1 && forall i :: 0 <= i < |t| ==> Text.IsDigit(t[i])
  {
    if |t| >= 1 && forall i :: 0 <= i < |t| ==> Text.IsDigit(t[i]) then Some(Text.ParseNat(t)) else None
  }

  /** The text of an id casts back to that id. */
  lemma CastIdText(id: Id)
    ensures CastId(IdText(id)) == Some(id)
  {
    Text.ParseNatToString(id);
  }

  /** The signed-in caller, as the authentication middleware puts it on `req.user`. */
  datatype Actor = Actor(id: Id, name: string)

  datatype Role = Member | Admin

  /** backend/models/User.js: `password` holds the stored digest, never the plain text. */
  datatype User = User(name: string, email: string, password: string, role: Role,
                       team: seq<Id>, profilePic: string, bio: string, skills: seq<string>)

  /** backend/models/Project.js; `deadline` is a millisecond timestamp. */
  datatype Project = Project(name: string, description: string, owner: Id, team: seq<Id>,
                             deadline: int)

  /** The three values the `status` enum of backend/models/Task.js admits. */
  datatype TaskStatus = Pending | InProgress | Completed

  /** The schema's enum check: the status a string names, if it names one. */
  function ParseStatus(s: string): (r: Option<TaskStatus>)
    ensures r.None? <==> s !in {"pending", "in progress", "completed"}
  {
    if s == "pending" then Some(Pending)
    else if s == "in progress" then Some(InProgress)
    else if s == "completed" then Some(Completed)
    else None
  }

  function StatusText(s: TaskStatus): string
  {
    match s
    case Pending => "pending"
    case InProgress => "in progress"
    case Completed => "completed"
  }

  /** The enum's names and the statuses correspond one to one. */
  lemma StatusRoundTrip(s: TaskStatus, t: string)
    ensures ParseStatus(StatusText(s)) == Some(s)
    ensures ParseStatus(t).Some? ==> StatusText(ParseStatus(t).value) == t
  {
  }

  /** backend/models/Task.js */
  datatype Task = Task(title: string, description: string, project: Id, assignedTo: Id,
                       assignedBy: Id, createdBy: Id, status: TaskStatus, dueDate: Option<int>)

  /** One entry of a chat's `messages` array (backend/models/Chat.js). */
  datatype ChatMessage = ChatMessage(sender: string, text: string, timestamp: int)

  /** A notification: recipient, text, read flag and creation time. */
  datatype Notification = Notification(user: Id, message: string, read: bool, createdAt: int)

  /** backend/models/File.js: `filename` is the uploader's name for the file, `filepath`
      the name it is stored under. */
  datatype FileRecord = FileRecord(filename: string, filepath: string, projectId: Id,
                                   uploadedBy: Id, uploadedAt: int)

  /** backend/models/Message.js: a contact-form entry. */
  datatype ContactMessage = ContactMessage(user: Id, subject: string, message: string)

  /** A notification about to be created: who receives it and what it says. */
  datatype Note = Note(user: Id, message: string)

  /** The whole store at one moment: the collections, the upload directory (`blobs`, the
      stored file names), the deletions `markAsRead` has scheduled and not yet run
      (`sweeps`, in the order they fire), and the id counter. A chat is filed under the
      id of its project, the key `Chat.findOne({ projectId })` looks it up by. */
  datatype State = State(
    users: map<Id, User>,
    projects: map<Id, Project>,
    tasks: map<Id, Task>,
    chats: map<Id, seq<ChatMessage>>,
    notifications: map<Id, Notification>,
    files: map<Id, FileRecord>,
    messages: map<Id, ContactMessage>,
    blobs: set<string>,
    sweeps: seq<Id>,
    nextId: nat)
  {
    /** Every document id was handed out by the counter. */
    ghost predicate Valid()
    {
      && (forall k :: k in users ==> k < nextId)
      && (forall k :: k in projects ==> k < nextId)
      && (forall k :: k in tasks ==> k < nextId)
      && (forall k :: k in notifications ==> k < nextId)
      && (forall k :: k in files ==> k < nextId)
      && (forall k :: k in messages ==> k < nextId)
    }

    /** The invariant of backend/models/Project.js's use: each project's owner is on its team. */
    ghost predicate OwnersInTeams()
    {
      forall p :: p in projects ==> projects[p].owner in projects[p].team
    }
  }

  /** `Model.findOne(filter)` over ids below `hi`, starting at `lo`: the first matching id. */
  function FindFirst<V>(m: map<Id, V>, p: V -> bool, lo: nat, hi: nat): (r: Option<Id>)
    ensures r.Some? ==> lo <= r.value < hi && r.value in m && p(m[r.value])
    ensures r.Some? ==> forall k :: lo <= k < r.value && k in m ==> !p(m[k])
    ensures r.None? ==> forall k :: lo <= k < hi && k in m ==> !p(m[k])
    decreases hi - lo
  {
    if lo >= hi then None
    else if lo in m && p(m[lo]) then Some(lo)
    else FindFirst(m, p, lo + 1, hi)
  }

  /** `Model.find(filter)` over ids below `hi`: every matching id, in insertion order. */
  function Matching<V>(m: map<Id, V>, p: V -> bool, hi: nat): (r: seq<Id>)
    ensures forall k :: k in r <==> k < hi && k in m && p(m[k])
    ensures forall i, j :: 0 <= i < j < |r| ==> r[i] < r[j]
    ensures forall i :: 0 <= i < |r| ==> r[i] < hi
    decreases hi
  {
    if hi == 0 then []
    else
      var r := Matching(m, p, hi - 1);
      if hi - 1 in m && p(m[hi - 1]) then r + [hi - 1] else r
  }

  /** `populate("team")`: the team members whose user document still exists, in team
      order (a member whose document is gone is dropped from the populated array). */
  function Populated(users: map<Id, User>, team: seq<Id>): (r: seq<Id>)
    ensures forall i :: 0 <= i < |r| ==> r[i] in users && r[i] in team
    ensures forall u :: u in team && u in users ==> u in r
  {
    Filter(team, (u: Id) => u in users)
  }

  /** The notes for a list of users, all with the same text. */
  function NotesFor(us: seq<Id>, msg: string): (r: seq<Note>)
    ensures |r| == |us|
    ensures forall j :: 0 <= j < |r| ==> r[j] == Note(us[j], msg)
  {
    seq(|us|, j requires 0 <= j < |us| => Note(us[j], msg))
  }

  /** The notifications a batch of notes becomes once created one after the other,
      starting with id `from`: note `i` unread under id `from + i`, stamped `now`. */
  function Stored(batch: seq<Note>, from: Id, now: int): (r: map<Id, Notification>)
    decreases |batch|
  {
    if batch == [] then map[]
    else
      var n := |batch| - 1;
      Stored(batch[..n], from, now)[from + n := Notification(batch[n].user, batch[n].message, false, now)]
  }

  /** The store object the controllers update in place. */
  class Db {
    var users: map<Id, User>
    var projects: map<Id, Project>
    var tasks: map<Id, Task>
    var chats: map<Id, seq<ChatMessage>>
    var notifications: map<Id, Notification>
    var files: map<Id, FileRecord>
    var messages: map<Id, ContactMessage>
    var blobs: set<string>
    var sweeps: seq<Id>
    var nextId: nat

    function Model(): State
      reads this
    {
      State(users, projects, tasks, chats, notifications, files, messages, blobs, sweeps, nextId)
    }

    ghost predicate Valid()
      reads this
    {
      Model().Valid()
    }

    constructor ()
      ensures Valid()
      ensures Model() == State(map[], map[], map[], map[], map[], map[], map[], {}, [], 0)
    {
      users, projects, tasks, chats := map[], map[], map[], map[];
      notifications, files, messages := map[], map[], map[];
      blobs, sweeps, nextId := {}, [], 0;
    }

    /** A fresh document id, larger than every id in use. */
    method NewId() returns (id: Id)
      requires Valid()
      modifies this`nextId
      ensures Valid()
      ensures id == old(nextId)
      ensures Model() == old(Model()).(nextId := id + 1)
    {
      id := nextId;
      nextId := nextId + 1;
    }

    /** `Notification.create({ user, message })`: a new unread notification. */
    method Notify(user: Id, message: string, now: int) returns (id: Id)
      requires Valid()
      modifies this`notifications, this`nextId
      ensures Valid()
      ensures id == old(nextId) && id !in old(notifications)
      ensures Model() == old(Model()).(
                notifications := old(notifications)[id := Notification(user, message, false, now)],
                nextId := id + 1)
    {
      id := nextId;
      nextId := nextId + 1;
      notifications := notifications[id := Notification(user, message, false, now)];
    }

    /** `User.create(user)`: a new user under a fresh id. */
    method CreateUser(user: User) returns (id: Id)
      requires Valid()
      modifies this`users, this`nextId
      ensures Valid()
      ensures id == old(nextId) && id !in old(users)
      ensures users == old(users)[id := user] && nextId == id + 1
    {
      id := nextId;
      nextId := nextId + 1;
      users := users[id := user];
    }

    /** `new Message(entry).save()`: a new contact message under a fresh id. */
    method CreateMessage(entry: ContactMessage) returns (id: Id)
      requires Valid()
      modifies this`messages, this`nextId
      ensures Valid()
      ensures id == old(nextId) && id !in old(messages)
      ensures messages == old(messages)[id := entry] && nextId == id + 1
    {
      id := nextId;
      nextId := nextId + 1;
      messages := messages[id := entry];
    }

    /** `File.create(record)`: a new file record under a fresh id. */
    method CreateFile(record: FileRecord) returns (id: Id)
      requires Valid()
      modifies this`files, this`nextId
      ensures Valid()
      ensures id == old(nextId) && id !in old(files)
      ensures files == old(files)[id := record] && nextId == id + 1
    {
      id := nextId;
      nextId := nextId + 1;
      files := files[id := record];
    }

    /** Creates the notes of `batch` one after the other, in order, with no check between
        them (the fan-outs of a file upload and of the deadline reminder). */
    method NotifyAll(batch: seq<Note>, now: int)
      requires Valid()
      modifies this`notifications, this`nextId
      ensures Valid()
      ensures notifications == old(notifications) + Stored(batch, old(nextId), now)
      ensures nextId == old(nextId) + |batch|
    {
      var i := 0;
      while i < |batch|
        invariant 0 <= i <= |batch|
        invariant old(Valid()) && forall k :: k in notifications ==> k < nextId
        invariant notifications == old(notifications) + Stored(batch[..i], old(nextId), now)
        invariant nextId == old(nextId) + i
      {
        StoredStep(old(notifications), batch, i, old(nextId), now);
        notifications := notifications[nextId := Notification(batch[i].user, batch[i].message, false, now)];
        nextId := nextId + 1;
        i := i + 1;
      }
      assert batch[..i] == batch;
    }
  }

  /** The stored batch occupies exactly the ids `from` to `from + |batch| - 1`, note `i`
      under `from + i`. */
  lemma {:induction false} StoredAt(batch: seq<Note>, from: Id, now: int, k: Id)
    ensures k in Stored(batch, from, now) <==> from <= k < from + |batch|
    ensures k in Stored(batch, from, now) ==>
              Stored(batch, from, now)[k] == Notification(batch[k - from].user, batch[k - from].message, false, now)
    decreases |batch|
  {
    if batch != [] {
      var n := |batch| - 1;
      StoredAt(batch[..n], from, now, k);
    }
  }

  /** Storing two batches one after the other stores their concatenation. */
  lemma {:induction false} StoredConcat(a: seq<Note>, b: seq<Note>, from: Id, now: int)
    ensures Stored(a, from, now) + Stored(b, from + |a|, now) == Stored(a + b, from, now)
    decreases |b|
  {
    if b == [] {
      assert a + b == a;
    } else {
      var n := |b| - 1;
      StoredConcat(a, b[..n], from, now);
      assert (a + b)[..|a| + n] == a + b[..n];
      assert (a + b)[|a| + n] == b[n];
    }
  }

  /** Storing a second batch right after a first one, on top of `base`, stores their
      concatenation. */
  lemma StoredAppend(base: map<Id, Notification>, prev: map<Id, Notification>, after: map<Id, Notification>,
                     done: seq<Note>, batch: seq<Note>, from: Id, start: Id, now: int)
    requires prev == base + Stored(done, from, now)
    requires start == from + |done| && after == prev + Stored(batch, start, now)
    ensures after == base + Stored(done + batch, from, now)
  {
    StoredConcat(done, batch, from, now);
    var a, b, c := base, Stored(done, from, now), Stored(batch, from + |done|, now);
    assert (a + b) + c == a + (b + c);
  }

  /** Creating note `i` of a batch extends the stored prefix by one id. */
  lemma StoredStep(before: map<Id, Notification>, batch: seq<Note>, i: nat, from: Id, now: int)
    requires i < |batch|
    ensures (before + Stored(batch[..i], from, now))[from + i := Notification(batch[i].user, batch[i].message, false, now)]
         == before + Stored(batch[..i + 1], from, now)
  {
    assert batch[..i + 1][..i] == batch[..i];
  }
}

=== FILE: task_controller.dfy ===
/** backend/controllers/taskController.js: creating tasks, changing their status,
    deleting them, and the part of the AI suggestion handler that is not the external call:
    its input check and the extraction of the fenced JSON block from the reply. */
module TaskController {
  import opened Common
  import opened Text
  import opened Store

  function AssignedNotice(title: string, actorName: string): string
  {
    "You have been assigned a new task: \"" + title + "\" by " + actorName
  }

  function StatusNotice(title: string, status: string, actorName: string): string
  {
    "Task \"" + title + "\" status updated to \"" + status + "\" by " + actorName
  }

  function DeletedNotice(title: string, actorName: string): string
  {
    "Task \"" + title + "\" has been deleted by " + actorName
  }

  /** The status createTask answers with: 500 when `findById(assignedTo)` cannot cast the
      body's text to an id (the catch of lines 36-38), 404 when it finds no user, 500 when
      `Task.create` rejects an empty title, 201 otherwise. */
  function CreateTaskCode(s: State, title: string, assignedTo: string): (code: int)
    ensures code == Created <==> CastId(assignedTo).Some? && CastId(assignedTo).value in s.users && title != ""
    ensures code == NotFound <==> CastId(assignedTo).Some? && CastId(assignedTo).value !in s.users
    ensures CastId(assignedTo).None? ==> code == ServerError
  {
    match CastId(assignedTo)
    case None => ServerError
    case Some(a) =>
      if a !in s.users then NotFound
      else if title == "" then ServerError
      else Created
  }

  /** createTask: the assignee, sent as text, must be an existing user's id; the new task is
      assigned and created by the caller, starts out pending, and its assignee is notified.
      Neither the project nor the assignee's membership of it is checked. A text that is
      not an id fails the lookup's cast, and an empty title fails the schema's `required`;
      both reach the catch. */
  method CreateTask(db: Db, actor: Actor, title: string, description: string, project: Id,
                    assignedTo: string, dueDate: Option<int>, now: int)
    returns (code: int, created: Option<Id>)
    requires db.Valid()
    modifies db
    ensures db.Valid()
    ensures code == CreateTaskCode(old(db.Model()), title, assignedTo)
    ensures CastId(assignedTo).None? ==>
              code == ServerError && created.None? && db.Model() == old(db.Model())
    ensures CastId(assignedTo).Some? && CastId(assignedTo).value !in old(db.users) ==>
              code == NotFound && created.None? && db.Model() == old(db.Model())
    ensures CastId(assignedTo).Some? && CastId(assignedTo).value in old(db.users) && title == "" ==>
              code == ServerError && created.None? && db.Model() == old(db.Model())
    ensures CastId(assignedTo).Some? && CastId(assignedTo).value in old(db.users) && title != "" ==>
              var s := old(db.Model());
              var a := CastId(assignedTo).value;
              && code == Created && created == Some(s.nextId)
              && db.Model() == s.(
                   tasks := s.tasks[s.nextId := Task(title, description, project, a,
                                                     actor.id, actor.id, Pending, dueDate)],
                   notifications := s.notifications[s.nextId + 1 :=
                     Notification(a, AssignedNotice(title, actor.name), false, now)],
                   nextId := s.nextId + 2)
  {
    var cast := CastId(assignedTo);
    if cast.None? {
      return ServerError, None;
    }
    var a := cast.value;
    if a !in db.users {
      return NotFound, None;
    }
    if title == "" {
      return ServerError, None;
    }
    var id := db.NewId();
    db.tasks := db.tasks[id := Task(title, description, project, a, actor.id, actor.id,
                                    Pending, dueDate)];
    var _ := db.Notify(a, AssignedNotice(title, actor.name), now);
    return Created, Some(id);
  }

  /** updateTaskStatus: only the assignee may change the status, only the status changes,
      and the task's creator is told if they still exist. A value outside the schema's enum
      fails validation and the stored status stays. */
  method UpdateTaskStatus(db: Db, actor: Actor, taskId: Id, status: string, now: int)
    returns (code: int)
    requires db.Valid()
    modifies db
    ensures db.Valid()
    ensures taskId !in old(db.tasks) ==> code == NotFound && db.Model() == old(db.Model())
    ensures taskId in old(db.tasks) && old(db.tasks[taskId].assignedTo) != actor.id ==>
              code == Forbidden && db.Model() == old(db.Model())
    ensures taskId in old(db.tasks) && old(db.tasks[taskId].assignedTo) == actor.id
            && ParseStatus(status).None? ==>
              code == ServerError && db.Model() == old(db.Model())
    ensures taskId in old(db.tasks) && old(db.tasks[taskId].assignedTo) == actor.id
            && ParseStatus(status).Some? ==>
              var s := old(db.Model());
              var t := s.tasks[taskId];
              var s' := s.(tasks := s.tasks[taskId := t.(status := ParseStatus(status).value)]);
              && code == OK
              && (t.createdBy !in s.users ==> db.Model() == s')
              && (t.createdBy in s.users ==>
                    db.Model() == s'.(
                      notifications := s.notifications[s.nextId :=
                        Notification(t.createdBy, StatusNotice(t.title, status, actor.name), false, now)],
                      nextId := s.nextId + 1))
  {
    if taskId !in db.tasks {
      return NotFound;
    }
    var t := db.tasks[taskId];
    if t.assignedTo != actor.id {
      return Forbidden;
    }
    var parsed := ParseStatus(status);
    if parsed.None? {
      return ServerError;
    }
    db.tasks := db.tasks[taskId := t.(status := parsed.value)];
    if t.createdBy in db.users {
      var _ := db.Notify(t.createdBy, StatusNotice(t.title, status, actor.name), now);
    }
    return OK;
  }

  /** The guard of deleteTask (lines 92-101): the task and its project exist and the caller
      owns the project. */
  predicate MayDeleteTask(s: State, actor: Id, taskId: Id)
  {
    && taskId in s.tasks
    && s.tasks[taskId].project in s.projects
    && s.projects[s.tasks[taskId].project].owner == actor
  }

  /** deleteTask: only the owner of the task's project may delete it; the assignee is told
      if they still exist, then the task alone is removed. When the project itself is gone,
      reading its owner throws and the handler answers 500. */
  method DeleteTask(db: Db, actor: Actor, taskId: Id, now: int) returns (code: int)
    requires db.Valid()
    modifies db
    ensures db.Valid()
    ensures code == OK <==> MayDeleteTask(old(db.Model()), actor.id, taskId)
    ensures taskId !in old(db.tasks) ==> code == NotFound && db.Model() == old(db.Model())
    ensures taskId in old(db.tasks) && old(db.tasks[taskId].project) !in old(db.projects) ==>
              code == ServerError && db.Model() == old(db.Model())
    ensures taskId in old(db.tasks) && old(db.tasks[taskId].project) in old(db.projects)
            && !MayDeleteTask(old(db.Model()), actor.id, taskId) ==>
              code == Forbidden && db.Model() == old(db.Model())
    ensures MayDeleteTask(old(db.Model()), actor.id, taskId) ==>
              var s := old(db.Model());
              var t := s.tasks[taskId];
              && (t.assignedTo !in s.users ==> db.Model() == s.(tasks := s.tasks - {taskId}))
              && (t.assignedTo in s.users ==>
                    db.Model() == s.(
                      tasks := s.tasks - {taskId},
                      notifications := s.notifications[s.nextId :=
                        Notification(t.assignedTo, DeletedNotice(t.title, actor.name), false, now)],
                      nextId := s.nextId + 1))
  {
    if taskId !in db.tasks {
      return NotFound;
    }
    var t := db.tasks[taskId];
    if t.project !in db.projects {
      return ServerError;
    }
    if db.projects[t.project].owner != actor.id {
      return Forbidden;
    }
    if t.assignedTo in db.users {
      var _ := db.Notify(t.assignedTo, DeletedNotice(t.title, actor.name), now);
    }
    db.tasks := db.tasks - {taskId};
    return OK;
  }

  const OpenFence: string := "```json"
  const CloseFence: string := "```"

  /** `rawText.match(/```json([\s\S]*?)```/)` matches with the opening fence at `i` and the
      closing fence at `j`: the lazy group stops at the first closing fence after the
      opening one. */
  ghost predicate FenceMatch(raw: string, i: nat, j: nat)
  {
    && OccursAt(raw, OpenFence, i)
    && i + |OpenFence| <= j
    && OccursAt(raw, CloseFence, j)
    && forall k :: i + |OpenFence| <= k < j ==> !OccursAt(raw, CloseFence, k)
  }

  /** suggestTasks, lines 144-145: the trimmed text between the first "```json" and the
      next "```", or the whole reply when there is no such block. */
  function ExtractJsonBlock(raw: string): string
  {
    match IndexOf(raw, OpenFence, 0)
    case None => raw
    case Some(i) =>
      match IndexOf(raw, CloseFence, i + |OpenFence|)
      case None => raw
      case Some(j) => Trim(raw[i + |OpenFence|..j])
  }

  /** The match the regular expression reports: the one whose opening fence comes first. */
  ghost predicate LeftmostMatch(raw: string, i: nat, j: nat)
  {
    FenceMatch(raw, i, j) && forall i': nat, j': nat :: FenceMatch(raw, i', j') ==> i <= i'
  }

  /** When the regular expression finds nothing, the whole reply is kept. */
  lemma ExtractWithoutMatch(raw: string)
    requires forall i: nat, j: nat :: !FenceMatch(raw, i, j)
    ensures ExtractJsonBlock(raw) == raw
  {
    var open := IndexOf(raw, OpenFence, 0);
    if open.Some? {
      var close := IndexOf(raw, CloseFence, open.value + |OpenFence|);
      if close.Some? {
        assert FenceMatch(raw, open.value, close.value);
      }
    }
  }

  /** When it finds a match, the extraction is the trimmed group of that match. */
  lemma ExtractLeftmostMatch(raw: string, i: nat, j: nat)
    requires LeftmostMatch(raw, i, j)
    ensures ExtractJsonBlock(raw) == Trim(raw[i + |OpenFence|..j])
  {
    var open := IndexOf(raw, OpenFence, 0);
    assert open.Some? && open.value <= i;
    // The closing fence at `j` also follows the first opening fence, so that fence
    // starts a match of its own and cannot come before `i`.
    var close := IndexOf(raw, CloseFence, open.value + |OpenFence|);
    assert close.Some?;
    assert FenceMatch(raw, open.value, close.value);
    assert close.value == j;
  }

  /** suggestTasks' input check: 400 unless both the project title and its description
      are given; otherwise the external model is asked, and its reply's JSON block is what
      gets parsed. */
  function SuggestTasks(projectTitle: string, projectDescription: string, reply: string)
    : (r: (int, string))
    ensures r.0 == BadRequest <==> projectTitle == "" || projectDescription == ""
    ensures r.0 != BadRequest ==> r == (OK, ExtractJsonBlock(reply))
  {
    if projectTitle == "" || projectDescription == "" then (BadRequest, "")
    else (OK, ExtractJsonBlock(reply))
  }
}

=== FILE: task_manager.dfy ===
/** frontend/src/components/TaskManager.jsx: a project's task board. The page keeps the tasks
    the server returned (assignee populated) and edits that list locally after each answer. */
module TaskManager {
  import opened Common
  import opened Store
  import opened TaskController

  /** A task as the board holds it. `assignee` is `assignedTo?._id`: nothing when the task
      is unassigned or the assigned user no longer exists. */
  datatype Card = Card(id: Id, title: string, description: string, status: string, assignee: Option<Id>)

  /** The creation form's fields, all text. */
  datatype TaskForm = TaskForm(title: string, description: string, assignedTo: string, dueDate: string)

  /** The body posted to the creation endpoint: the form plus the project's id. */
  datatype TaskRequest = TaskRequest(title: string, description: string, assignedTo: string,
                                     dueDate: string, project: Id)

  /** createTask (lines 42-53): nothing is sent unless both the title and the description
      are filled in; otherwise the whole form goes out with the project's id. */
  function CreateRequest(form: TaskForm, projectId: Id): (r: Option<TaskRequest>)
    ensures r.None? <==> form.title == "" || form.description == ""
    ensures r.Some? ==> r.value.title == form.title && r.value.description == form.description
                        && r.value.assignedTo == form.assignedTo && r.value.dueDate == form.dueDate
                        && r.value.project == projectId
  {
    if form.title == "" || form.description == "" then None
    else Some(TaskRequest(form.title, form.description, form.assignedTo, form.dueDate, projectId))
  }

  /** Every request the form sends has a title, so the schema's "title is required" never
      fails on it. What the server answers then rests on the assignee selector (lines
      181-191): the placeholder "Assign to..." leaves the text empty, which createTask's
      lookup cannot cast, so the answer is 500; a member's option sends that member's id
      text, which gets 201 when the user exists and 404 otherwise. */
  lemma RequestHasTitle(form: TaskForm, projectId: Id, s: State)
    requires CreateRequest(form, projectId).Some?
    ensures var req := CreateRequest(form, projectId).value;
            && req.title != ""
            && (req.assignedTo == "" ==> CreateTaskCode(s, req.title, req.assignedTo) == ServerError)
            && (forall m: Id :: req.assignedTo == IdText(m) ==>
                  CreateTaskCode(s, req.title, req.assignedTo) == (if m in s.users then Created else NotFound))
  {
    var req := CreateRequest(form, projectId).value;
    forall m: Id | req.assignedTo == IdText(m)
      ensures CreateTaskCode(s, req.title, req.assignedTo) == (if m in s.users then Created else NotFound)
    {
      CastIdText(m);
    }
  }

  /** The local update after a successful status change (lines 86-88): the matching card
      takes the new status, every other card stays as it was, and the order is kept. */
  function UpdateLocal(cards: seq<Card>, taskId: Id, status: string): (r: seq<Card>)
    ensures |r| == |cards|
    ensures forall i :: 0 <= i < |r| ==>
              r[i] == if cards[i].id == taskId then cards[i].(status := status) else cards[i]
  {
    seq(|cards|, i requires 0 <= i < |cards| =>
      if cards[i].id == taskId then cards[i].(status := status) else cards[i])
  }

  /** Repeating an update changes nothing more. */
  lemma UpdateLocalIdempotent(cards: seq<Card>, taskId: Id, status: string)
    ensures UpdateLocal(UpdateLocal(cards, taskId, status), taskId, status) == UpdateLocal(cards, taskId, status)
  {
    var once := UpdateLocal(cards, taskId, status);
    var twice := UpdateLocal(once, taskId, status);
    assert forall i :: 0 <= i < |cards| ==> twice[i] == once[i];
  }

  /** The local delete after a successful deletion (line 115). */
  function RemoveLocal(cards: seq<Card>, taskId: Id): (r: seq<Card>)
    ensures forall c :: c in r <==> c in cards && c.id != taskId
  {
    Filter(cards, (c: Card) => c.id != taskId)
  }

  /** The delete keeps the others in order: it works on each part of the list separately. */
  lemma RemoveLocalKeepsOrder(a: seq<Card>, b: seq<Card>, taskId: Id)
    ensures RemoveLocal(a + b, taskId) == RemoveLocal(a, taskId) + RemoveLocal(b, taskId)
  {
    FilterConcat(a, b, (c: Card) => c.id != taskId);
  }

  /** The "New Tasks" column (line 156): every card whose status is not "completed". */
  function NewTasks(cards: seq<Card>): (r: seq<Card>)
    ensures forall c :: c in r <==> c in cards && c.status != "completed"
  {
    Filter(cards, (c: Card) => c.status != "completed")
  }

  /** The "Completed Tasks" column (line 157). */
  function CompletedTasks(cards: seq<Card>): (r: seq<Card>)
    ensures forall c :: c in r <==> c in cards && c.status == "completed"
  {
    Filter(cards, (c: Card) => c.status == "completed")
  }

  /** The two columns split the board: every card shows in exactly one of them, as many
      times as it is listed, and each column keeps the board's order. */
  lemma ColumnsPartition(cards: seq<Card>, more: seq<Card>)
    ensures multiset(NewTasks(cards)) + multiset(CompletedTasks(cards)) == multiset(cards)
    ensures |NewTasks(cards)| + |CompletedTasks(cards)| == |cards|
    ensures NewTasks(cards + more) == NewTasks(cards) + NewTasks(more)
    ensures CompletedTasks(cards + more) == CompletedTasks(cards) + CompletedTasks(more)
  {
    var open, done := (c: Card) => c.status != "completed", (c: Card) => c.status == "completed";
    FilterPartition(cards, open, done);
    FilterConcat(cards, more, open);
    FilterConcat(cards, more, done);
  }

  /** Marking a card "completed" moves it out of the first column; any other status puts
      it there. */
  lemma UpdateMovesCard(cards: seq<Card>, taskId: Id, status: string)
    ensures status == "completed" ==> forall c :: c in NewTasks(UpdateLocal(cards, taskId, status)) ==> c.id != taskId
    ensures status != "completed" ==> forall c :: c in CompletedTasks(UpdateLocal(cards, taskId, status)) ==> c.id != taskId
  {
  }

  /** Deleting a card and splitting the board commute. */
  lemma RemoveFromColumn(cards: seq<Card>, taskId: Id)
    ensures NewTasks(RemoveLocal(cards, taskId)) == RemoveLocal(NewTasks(cards), taskId)
    ensures CompletedTasks(RemoveLocal(cards, taskId)) == RemoveLocal(CompletedTasks(cards), taskId)
  {
    var gone := (c: Card) => c.id != taskId;
    FilterCommute(cards, gone, (c: Card) => c.status != "completed");
    FilterCommute(cards, gone, (c: Card) => c.status == "completed");
  }

  const PendingLabel: string := "\U{1F7E1} Pending"
  const InProgressLabel: string := "\U{1F535} In Progress"
  const CompletedLabel: string := "\U{1F7E2} Completed"

  /** The status line of a card (lines 305-309): any status other than "pending" and
      "in progress" reads as completed. */
  function StatusLabel(status: string): (r: string)
    ensures r == PendingLabel <==> status == "pending"
    ensures r == InProgressLabel <==> status == "in progress"
    ensures r == CompletedLabel <==> status != "pending" && status != "in progress"
  {
    if status == "pending" then PendingLabel
    else if status == "in progress" then InProgressLabel
    else CompletedLabel
  }

  /** The three statuses the schema allows get three different labels, and a text the
      schema refuses is shown as completed. */
  lemma StatusLabelsOfSchema(s: TaskStatus, t: TaskStatus, other: string)
    requires ParseStatus(other).None?
    ensures StatusLabel(StatusText(s)) == StatusLabel(StatusText(t)) ==> s == t
    ensures StatusLabel(other) == CompletedLabel
  {
  }

  /** The status selector (line 311) is shown when the card's assignee is the viewer. */
  predicate ShowStatusSelect(card: Card, viewer: Id)
  {
    card.assignee == Some(viewer)
  }

  /** The delete button (lines 250 and 322) is shown to the project's owner. */
  predicate ShowDelete(viewer: Id, projectOwner: Id)
  {
    viewer == projectOwner
  }

  /** The card of a stored task: `populate("assignedTo")` yields nothing for a user who no
      longer exists. */
  function CardOf(users: map<Id, User>, id: Id, t: Task): (c: Card)
    ensures c.id == id && c.status == StatusText(t.status)
    ensures c.assignee.Some? <==> t.assignedTo in users
    ensures c.assignee.Some? ==> c.assignee.value == t.assignedTo
  {
    Card(id, t.title, t.description, StatusText(t.status),
         if t.assignedTo in users then Some(t.assignedTo) else None)
  }

  /** The board shows the selector to exactly the user the server lets change the status
      (the task's assignee), except that a task whose assignee was removed shows it to no
      one. */
  lemma SelectorMatchesServer(users: map<Id, User>, id: Id, t: Task, viewer: Id)
    ensures ShowStatusSelect(CardOf(users, id, t), viewer) ==> t.assignedTo == viewer
    ensures t.assignedTo == viewer && viewer in users ==> ShowStatusSelect(CardOf(users, id, t), viewer)
  {
  }

  /** The delete button is shown to exactly the user the server lets delete the task: on
      the board of a stored project, whose owner the page receives as `projectOwnerId`,
      every task of that project shows it to the user that passes deleteTask's guard. */
  lemma DeleteButtonMatchesServer(s: State, projectId: Id, taskId: Id, viewer: Id)
    requires projectId in s.projects
    requires taskId in s.tasks && s.tasks[taskId].project == projectId
    ensures ShowDelete(viewer, s.projects[projectId].owner) <==> MayDeleteTask(s, viewer, taskId)
  {
  }
}

=== FILE: text.dfy ===
/** The JavaScript string operations the application relies on: `trim`, `toLowerCase`,
    `includes`/`indexOf`, `split` on one character, `join`, and the decimal rendering of
    a number inside a template string. */
module Text {
  import opened Common

  /** The characters `String.prototype.trim` strips: the ECMAScript white space and
      line terminators. */
  predicate IsSpace(c: char)
  {
    c in {' ', '\t', '\n', '\r', '\U{B}', '\U{C}', '\U{A0}', '\U{1680}', '\U{2028}',
          '\U{2029}', '\U{202F}', '\U{205F}', '\U{3000}', '\U{FEFF}'}
    || ('\U{2000}' <= c <= '\U{200A}')
  }

  predicate IsDigit(c: char)
  {
    '0' <= c <= '9'
  }

  /** A string that is empty after `trim`, i.e. falsy once trimmed. */
  predicate IsBlank(s: string)
  {
    forall i :: 0 <= i < |s| ==> IsSpace(s[i])
  }

  /** `trimStart`: drops the leading white space and keeps the rest as it is. */
  function TrimStart(s: string): (r: string)
    ensures |r| <= |s| && r == s[|s| - |r|..]
    ensures forall i :: 0 <= i < |s| - |r| ==> IsSpace(s[i])
    ensures r == [] || !IsSpace(r[0])
    decreases |s|
  {
    if s != [] && IsSpace(s[0]) then TrimStart(s[1..]) else s
  }

  /** `trimEnd`: drops the trailing white space and keeps the rest as it is. */
  function TrimEnd(s: string): (r: string)
    ensures |r| <= |s| && r == s[..|r|]
    ensures forall i :: |r| <= i < |s| ==> IsSpace(s[i])
    ensures r == [] || !IsSpace(r[|r| - 1])
    decreases |s|
  {
    if s != [] && IsSpace(s[|s| - 1]) then TrimEnd(s[..|s| - 1]) else s
  }

  /** `trim`. */
  function Trim(s: string): string
  {
    TrimEnd(TrimStart(s))
  }

  /** `trim()` yields "" exactly on blank strings, and keeps a string that neither starts
      nor ends with white space. */
  lemma TrimmedEmptyIffBlank(s: string)
    ensures Trim(s) == [] <==> IsBlank(s)
    ensures s == [] || (!IsSpace(s[0]) && !IsSpace(s[|s| - 1])) ==> Trim(s) == s
  {
  }

  /** One leading white-space character makes no difference to `trim`. */
  lemma TrimSkipsLeadingSpace(c: char, s: string)
    requires IsSpace(c)
    ensures Trim([c] + s) == Trim(s)
  {
    assert ([c] + s)[1..] == s;
  }

  function LowerChar(c: char): (r: char)
  {
    if 'A' <= c <= 'Z' then (c as int - 'A' as int + 'a' as int) as char else c
  }

  /** `toLowerCase`, on the ASCII letters. */
  function ToLower(s: string): (r: string)
  {
    seq(|s|, i requires 0 <= i < |s| => LowerChar(s[i]))
  }

  /** `t` occurs in `s` starting at index `i`. */
  predicate OccursAt(s: string, t: string, i: nat)
  {
    i + |t| <= |s| && s[i..i + |t|] == t
  }

  /** `s.indexOf(t, from)`: the first index at or after `from` where `t` occurs. */
  function IndexOf(s: string, t: string, from: nat): (r: Option<nat>)
    ensures r.Some? ==> from <= r.value && OccursAt(s, t, r.value)
    ensures r.Some? ==> forall j :: from <= j < r.value ==> !OccursAt(s, t, j)
    ensures r.None? ==> forall j :: from <= j ==> !OccursAt(s, t, j)
    decreases |s| - from
  {
    if from + |t| > |s| then None
    else if OccursAt(s, t, from) then Some(from)
    else IndexOf(s, t, from + 1)
  }

  /** `s.includes(t)`; also what an unanchored regular expression made of literal
      alternatives tests for each alternative. */
  predicate Contains(s: string, t: string)
  {
    IndexOf(s, t, 0).Some?
  }

  lemma ContainsIffOccurs(s: string, t: string)
    ensures Contains(s, t) <==> exists i: nat :: OccursAt(s, t, i)
  {
    if Contains(s, t) {
      assert OccursAt(s, t, IndexOf(s, t, 0).value);
    }
  }

  /** A witness occurrence makes `includes` true. */
  lemma ContainsAt(s: string, t: string, i: nat)
    requires OccursAt(s, t, i)
    ensures Contains(s, t)
  {
  }

  /** `parts.join(sep)`. */
  function Join(parts: seq<string>, sep: string): (r: string)
    decreases |parts|
  {
    if |parts| == 0 then ""
    else if |parts| == 1 then parts[0]
    else parts[0] + sep + Join(parts[1..], sep)
  }

  lemma JoinCons(first: string, rest: seq<string>, sep: string)
    ensures Join([first] + rest, sep) == if rest == [] then first else first + sep + Join(rest, sep)
  {
    assert ([first] + rest)[1..] == rest;
  }

  /** `s.split(sep)` for a one-character separator: never empty, no piece holds the
      separator, and joining the pieces back gives `s`. */
  function Split(s: string, sep: char): (r: seq<string>)
    ensures |r| >= 1
    ensures forall i :: 0 <= i < |r| ==> sep !in r[i]
    ensures Join(r, [sep]) == s
    decreases |s|
  {
    if s == [] then [""]
    else
      var rest := Split(s[1..], sep);
      if s[0] == sep then
        JoinCons("", rest, [sep]);
        [""] + rest
      else
        JoinCons(rest[0], rest[1..], [sep]);
        JoinCons([s[0]] + rest[0], rest[1..], [sep]);
        assert [rest[0]] + rest[1..] == rest;
        [[s[0]] + rest[0]] + rest[1..]
  }

  /** A string without the separator splits into itself alone. */
  lemma {:induction false} SplitNoSeparator(s: string, sep: char)
    requires sep !in s
    ensures Split(s, sep) == [s]
    decreases |s|
  {
    if s != [] {
      SplitNoSeparator(s[1..], sep);
      assert [s[0]] + s[1..] == s;
    }
  }

  /** Splitting stops at the first separator. */
  lemma {:induction false} SplitAtFirst(a: string, sep: char, b: string)
    requires sep !in a
    ensures Split(a + [sep] + b, sep) == [a] + Split(b, sep)
    decreases |a|
  {
    if a == [] {
      assert [sep] + b == a + [sep] + b;
      assert ([sep] + b)[1..] == b;
    } else {
      var s := a + [sep] + b;
      assert s[0] == a[0] && s[1..] == a[1..] + [sep] + b;
      SplitAtFirst(a[1..], sep, b);
      var rest := Split(s[1..], sep);
      assert Split(s, sep) == [[s[0]] + rest[0]] + rest[1..];
      assert [a[0]] + a[1..] == a;
    }
  }

  /** `split` undoes `join` when no piece holds the separator. */
  lemma {:induction false} SplitJoin(parts: seq<string>, sep: char)
    requires |parts| >= 1
    requires forall i :: 0 <= i < |parts| ==> sep !in parts[i]
    ensures Split(Join(parts, [sep]), sep) == parts
    decreases |parts|
  {
    if |parts| == 1 {
      SplitNoSeparator(parts[0], sep);
    } else {
      SplitJoin(parts[1..], sep);
      SplitAtFirst(parts[0], sep, Join(parts[1..], [sep]));
      assert [parts[0]] + parts[1..] == parts;
    }
  }

  function DigitChar(d: nat): (c: char)
    requires d < 10
    ensures IsDigit(c)
  {
    ('0' as int + d) as char
  }

  /** The decimal text of a non-negative number, as `${n}` renders it. */
  function NatToString(n: nat): (r: string)
    ensures |r| >= 1
    ensures forall i :: 0 <= i < |r| ==> IsDigit(r[i])
    decreases n
  {
    if n < 10 then [DigitChar(n)] else NatToString(n / 10) + [DigitChar(n % 10)]
  }

  /** The value of a decimal digit. */
  function DigitValue(c: char): (d: nat)
    requires IsDigit(c)
    ensures d < 10 && DigitChar(d) == c
  {
    c as int - '0' as int
  }

  /** The number a non-empty string of decimal digits denotes. */
  function ParseNat(s: string): (n: nat)
    requires |s| >= 1 && forall i :: 0 <= i < |s| ==> IsDigit(s[i])
    decreases |s|
  {
    if |s| == 1 then DigitValue(s[0])
    else ParseNat(s[..|s| - 1]) * 10 + DigitValue(s[|s| - 1])
  }

  /** Reading back the decimal text of a number gives that number. */
  lemma {:induction false} ParseNatToString(n: nat)
    ensures ParseNat(NatToString(n)) == n
    decreases n
  {
    if n >= 10 {
      var r := NatToString(n);
      assert r[..|r| - 1] == NatToString(n / 10);
      ParseNatToString(n / 10);
    }
  }
}

=== FILE: todo_list.dfy ===
/** frontend/src/components/TodoList.jsx: the personal to-do list kept in the browser. Each
    handler computes the next component state from the current one; `now` stands for
    `Date.now()`, which becomes the new item's id. */
module TodoList {
  import opened Common
  import opened Text

  datatype Item = Item(id: int, text: string, completed: bool)

  /** The component's state: the items, the input box, the item being edited (if any) and
      the selected filter. */
  datatype Todo = Todo(tasks: seq<Item>, input: string, editing: Option<int>, filter: string)

  /** Edit mode's `map` (lines 29-33): the text of every item with that id is replaced. */
  function Renamed(tasks: seq<Item>, id: int, text: string): (r: seq<Item>)
    ensures |r| == |tasks|
    ensures forall i :: 0 <= i < |r| ==>
              && r[i].id == tasks[i].id && r[i].completed == tasks[i].completed
              && r[i].text == (if tasks[i].id == id then text else tasks[i].text)
  {
    seq(|tasks|, i requires 0 <= i < |tasks| =>
      if tasks[i].id == id then tasks[i].(text := text) else tasks[i])
  }

  /** addTask (lines 26-39): nothing for a blank input; otherwise, in edit mode, the edited
      item takes the input as it is (untrimmed) and edit mode ends, and in add mode a new
      open item is appended; either way the input is cleared. */
  function AddTask(st: Todo, now: int): (r: Todo)
    ensures IsBlank(st.input) ==> r == st
    ensures !IsBlank(st.input) ==> r.input == "" && r.editing.None? && r.filter == st.filter
    ensures !IsBlank(st.input) && st.editing.None? ==> r.tasks == st.tasks + [Item(now, st.input, false)]
    ensures !IsBlank(st.input) && st.editing.Some? ==> r.tasks == Renamed(st.tasks, st.editing.value, st.input)
  {
    TrimmedEmptyIffBlank(st.input);
    if Trim(st.input) == [] then st
    else if st.editing.Some? then
      st.(tasks := Renamed(st.tasks, st.editing.value, st.input), editing := None, input := "")
    else st.(tasks := st.tasks + [Item(now, st.input, false)], input := "")
  }

  /** addTask changes the state exactly when the input is not blank. */
  lemma AddTaskChangesIffNotBlank(st: Todo, now: int)
    ensures AddTask(st, now) == st <==> IsBlank(st.input)
  {
    if !IsBlank(st.input) {
      assert st.input != "";
    }
  }

  /** editTask (lines 41-44): remember the item and put its text in the input box. */
  function EditTask(st: Todo, id: int, text: string): (r: Todo)
    ensures r.tasks == st.tasks && r.editing == Some(id) && r.input == text
  {
    st.(editing := Some(id), input := text)
  }

  /** Editing an item and saving a non-blank text changes that item's text alone, keeps
      every id, flag and position, and leaves edit mode with an empty input. */
  lemma EditThenSave(st: Todo, id: int, text: string, now: int)
    requires !IsBlank(text)
    ensures var r := AddTask(EditTask(st, id, text), now);
            && r.editing.None? && r.input == ""
            && |r.tasks| == |st.tasks|
            && forall i :: 0 <= i < |st.tasks| ==>
                 r.tasks[i].id == st.tasks[i].id && r.tasks[i].completed == st.tasks[i].completed
                 && (st.tasks[i].id != id ==> r.tasks[i] == st.tasks[i])
                 && (st.tasks[i].id == id ==> r.tasks[i].text == text)
  {
  }

  /** deleteTask (lines 46-48): every item with that id goes, every other item stays. */
  function DeleteTask(tasks: seq<Item>, id: int): (r: seq<Item>)
    ensures forall i :: 0 <= i < |r| ==> r[i].id != id && r[i] in tasks
    ensures forall i :: 0 <= i < |tasks| && tasks[i].id != id ==> tasks[i] in r
  {
    Filter(tasks, (t: Item) => t.id != id)
  }

  /** Deleting keeps the order: it works on each part of a list separately. */
  lemma DeleteKeepsOrder(a: seq<Item>, b: seq<Item>, id: int)
    ensures DeleteTask(a + b, id) == DeleteTask(a, id) + DeleteTask(b, id)
  {
    FilterConcat(a, b, (t: Item) => t.id != id);
  }

  /** Deleting an id no item has changes nothing. */
  lemma DeleteAbsent(tasks: seq<Item>, id: int)
    requires forall i :: 0 <= i < |tasks| ==> tasks[i].id != id
    ensures DeleteTask(tasks, id) == tasks
  {
    FilterKeepsAll(tasks, (t: Item) => t.id != id);
  }

  /** toggleCompletion (lines 50-56): the flag of every item with that id flips. */
  function Toggle(tasks: seq<Item>, id: int): (r: seq<Item>)
    ensures |r| == |tasks|
    ensures forall i :: 0 <= i < |r| ==>
              r[i] == if tasks[i].id == id then tasks[i].(completed := !tasks[i].completed) else tasks[i]
  {
    seq(|tasks|, i requires 0 <= i < |tasks| =>
      if tasks[i].id == id then tasks[i].(completed := !tasks[i].completed) else tasks[i])
  }

  /** Toggling twice gives back the list. */
  lemma ToggleTwice(tasks: seq<Item>, id: int)
    ensures Toggle(Toggle(tasks, id), id) == tasks
  {
    var r := Toggle(Toggle(tasks, id), id);
    assert forall i :: 0 <= i < |tasks| ==> r[i] == tasks[i];
  }

  /** filteredTasks (lines 58-62). */
  function Visible(tasks: seq<Item>, filter: string): (r: seq<Item>)
    ensures forall i :: 0 <= i < |r| ==> r[i] in tasks
    ensures filter == "completed" ==>
              (forall i :: 0 <= i < |r| ==> r[i].completed)
              && forall i :: 0 <= i < |tasks| && tasks[i].completed ==> tasks[i] in r
    ensures filter == "pending" ==>
              (forall i :: 0 <= i < |r| ==> !r[i].completed)
              && forall i :: 0 <= i < |tasks| && !tasks[i].completed ==> tasks[i] in r
  {
    if filter == "completed" then Filter(tasks, (t: Item) => t.completed)
    else if filter == "pending" then Filter(tasks, (t: Item) => !t.completed)
    else tasks
  }

  /** The "completed" and "pending" views split the list between them, and any other
      filter shows all of it. */
  lemma VisiblePartition(tasks: seq<Item>, other: string)
    requires other != "completed" && other != "pending"
    ensures multiset(Visible(tasks, "completed")) + multiset(Visible(tasks, "pending")) == multiset(tasks)
    ensures Visible(tasks, other) == tasks
  {
    FilterPartition(tasks, (t: Item) => t.completed, (t: Item) => !t.completed);
  }

  /** Every view keeps the list's order. */
  lemma VisibleKeepsOrder(a: seq<Item>, b: seq<Item>, filter: string)
    ensures Visible(a + b, filter) == Visible(a, filter) + Visible(b, filter)
  {
    FilterConcat(a, b, (t: Item) => t.completed);
    FilterConcat(a, b, (t: Item) => !t.completed);
  }
}

=== FILE: upload_middleware.dfy ===
/** backend/middleware/uploadMiddleware.js: which uploads multer admits and the name it
    stores them under. The directory itself is the store's `blobs`. */
module UploadMiddleware {
  import opened Common
  import opened Text
  import opened Store

  /** The alternatives of the pattern `/jpeg|jpg|png|pdf|docx|txt/`. */
  const AllowedTypes: seq<string> := ["jpeg", "jpg", "png", "pdf", "docx", "txt"]

  /** `limits.fileSize`: 5 MiB. */
  const MaxFileSize: nat := 5 * 1024 * 1024

  /** What `test` of an unanchored pattern of literal alternatives means: one of the
      alternatives occurs somewhere in `s`. */
  ghost predicate TypeMatch(s: string)
  {
    exists t, i: nat :: t in AllowedTypes && OccursAt(s, t, i)
  }

  /** The test computed one alternative at a time, each by `includes`. */
  function AnyContained(s: string, toks: seq<string>): (r: bool)
    ensures r <==> exists t, i: nat :: t in toks && OccursAt(s, t, i)
    decreases |toks|
  {
    if toks == [] then false
    else
      ContainsIffOccurs(s, toks[0]);
      assert forall t :: t in toks <==> t == toks[0] || t in toks[1..];
      Contains(s, toks[0]) || AnyContained(s, toks[1..])
  }

  /** The index of the last '.' in `s`, if any. */
  function LastDot(s: string): (r: Option<nat>)
    ensures r.Some? ==> r.value < |s| && s[r.value] == '.' && '.' !in s[r.value + 1..]
    ensures r.None? ==> '.' !in s
    decreases |s|
  {
    if s == [] then None
    else if s[|s| - 1] == '.' then Some(|s| - 1)
    else
      var r := LastDot(s[..|s| - 1]);
      assert s == s[..|s| - 1] + [s[|s| - 1]];
      if r.Some? then assert s[r.value + 1..] == s[..|s| - 1][r.value + 1..] + [s[|s| - 1]]; r
      else r
  }

  /** `path.extname`: the suffix of the name from its last '.', or "" when it has none. */
  function ExtName(name: string): (r: string)
    ensures '.' !in name ==> r == ""
    ensures '.' in name ==> 1 <= |r| <= |name| && r[0] == '.' && '.' !in r[1..] && r == name[|name| - |r|..]
  {
    match LastDot(name)
    case None => ""
    case Some(i) =>
      assert name[i..][1..] == name[i + 1..];
      name[i..]
  }

  /** fileFilter (lines 22-32): accepted exactly when the lower-cased extension and the
      MIME type each contain one of the allowed alternatives, anywhere. */
  function FileFilter(originalName: string, mimetype: string): (r: bool)
    ensures r <==> TypeMatch(ToLower(ExtName(originalName))) && TypeMatch(mimetype)
  {
    AnyContained(ToLower(ExtName(originalName)), AllowedTypes)
    && AnyContained(mimetype, AllowedTypes)
  }

  /** No alternative occurs in a text of at most three characters that is empty or
      starts with a dot: every alternative has at least three letters. */
  lemma NoMatchInShortExtension(s: string)
    requires |s| <= 3 && (s == [] || s[0] == '.')
    ensures !TypeMatch(s)
  {
    forall t, i: nat | t in AllowedTypes
      ensures !OccursAt(s, t, i)
    {
    }
  }

  /** Lower-casing keeps the length and leaves a dot a dot. */
  lemma ToLowerKeepsDot(s: string)
    ensures |ToLower(s)| == |s|
    ensures s != [] && s[0] == '.' ==> ToLower(s)[0] == '.'
  {
  }

  /** An accepted file has an extension of at least a dot and three letters, so a name
      without a '.' is always refused and an accepted name is never empty. */
  lemma AcceptedHasExtension(originalName: string, mimetype: string)
    requires FileFilter(originalName, mimetype)
    ensures '.' in originalName && |ExtName(originalName)| >= 4
  {
    var e := ExtName(originalName);
    ToLowerKeepsDot(e);
    if |e| < 4 {
      NoMatchInShortExtension(ToLower(e));
    }
  }

  /** A text in which no two neighbouring characters are the first two of `t` does not
      contain `t`. */
  lemma NoOccurrence(s: string, t: string)
    requires |t| >= 2
    requires forall i :: 0 <= i < |s| - 1 ==> s[i] != t[0] || s[i + 1] != t[1]
    ensures forall i: nat :: !OccursAt(s, t, i)
  {
    forall i: nat
      ensures !OccursAt(s, t, i)
    {
      if i + |t| <= |s| {
        assert s[i..i + |t|][0] == s[i] && s[i..i + |t|][1] == s[i + 1];
      }
    }
  }

  /** "text/plain" contains none of the alternatives (not even "txt"), so a plain-text
      upload is refused whatever its extension. */
  lemma TextPlainRejected(originalName: string)
    ensures !FileFilter(originalName, "text/plain")
  {
    var m := "text/plain";
    NoOccurrence(m, "jpeg");
    NoOccurrence(m, "jpg");
    NoOccurrence(m, "png");
    NoOccurrence(m, "pdf");
    NoOccurrence(m, "docx");
    NoOccurrence(m, "txt");
    assert !TypeMatch(m);
  }

  /** Every alternative is written in lower-case letters. */
  lemma AllowedTypesLower()
    ensures forall t, k :: t in AllowedTypes && 0 <= k < |t| ==> 'a' <= t[k] <= 'z'
  {
  }

  /** The extension of a name is what follows its last dot. */
  lemma ExtNameAfterDot(stem: string, x: string)
    requires '.' !in x
    ensures ExtName(stem + "." + x) == "." + x
  {
    var name := stem + "." + x;
    var r := LastDot(name);
    assert name[|stem|] == '.';
    assert r.Some?;
    assert name[|stem|..] == "." + x;
  }

  /** A lower-case text is its own lower-casing. */
  lemma ToLowerOfLower(s: string)
    requires forall i :: 0 <= i < |s| ==> !('A' <= s[i] <= 'Z')
    ensures ToLower(s) == s
  {
  }

  /** An extension made of an alternative and a lower-case tail is already lower case. */
  lemma LowerExtension(tok: string, tail: string)
    requires tok in AllowedTypes
    requires forall i :: 0 <= i < |tail| ==> !('A' <= tail[i] <= 'Z')
    ensures ToLower("." + (tok + tail)) == "." + (tok + tail)
  {
    var e := "." + (tok + tail);
    AllowedTypesLower();
    forall k | 0 <= k < |e|
      ensures !('A' <= e[k] <= 'Z')
    {
      if 1 <= k <= |tok| {
        assert e[k] == tok[k - 1];
      } else if k > |tok| {
        assert e[k] == tail[k - 1 - |tok|];
      }
    }
    ToLowerOfLower(e);
  }

  /** The alternative right after the dot occurs at index 1. */
  lemma OccursAfterDot(tok: string, tail: string)
    ensures OccursAt("." + (tok + tail), tok, 1)
  {
    var e, x := "." + (tok + tail), tok + tail;
    assert e[1..] == x && x[..|tok|] == tok;
    assert e[1..1 + |tok|] == e[1..][..|tok|];
  }

  /** The match is not anchored: an extension that merely contains an allowed
      alternative, followed by anything without a dot (".jpgx", ".pdf2"), passes. */
  lemma UnanchoredExtension(stem: string, tok: string, tail: string, mimetype: string)
    requires tok in AllowedTypes && TypeMatch(mimetype)
    requires '.' !in tail && forall i :: 0 <= i < |tail| ==> !('A' <= tail[i] <= 'Z')
    ensures FileFilter(stem + "." + tok + tail, mimetype)
  {
    var x := tok + tail;
    assert '.' !in tok by {
      AllowedTypesLower();
    }
    assert '.' !in x;
    assert stem + "." + tok + tail == stem + "." + x;
    ExtNameAfterDot(stem, x);
    LowerExtension(tok, tail);
    OccursAfterDot(tok, tail);
  }

  /** The stored name (lines 16-18): the upload time in milliseconds, a '-', and the name
      the client gave. */
  function StoredName(now: nat, originalName: string): string
  {
    NatToString(now) + "-" + originalName
  }

  /** The first '-' of a stored name ends the time stamp, so both parts can be read back:
      the time's digits before it and the original name after it. */
  lemma StoredNameParts(now: nat, originalName: string)
    ensures var s, d := StoredName(now, originalName), NatToString(now);
            && IndexOf(s, "-", 0) == Some(|d|)
            && s[..|d|] == d
            && s[|d| + 1..] == originalName
  {
    var s, d := StoredName(now, originalName), NatToString(now);
    assert OccursAt(s, "-", |d|);
    forall j | 0 <= j < |d|
      ensures !OccursAt(s, "-", j)
    {
      assert s[j] == d[j] && IsDigit(d[j]);
      assert s[j..j + 1][0] == s[j] != "-"[0];
    }
  }

  /** What `upload.single("file")` lets through to the handler: the stored name of an
      accepted file of at most 5 MiB; a refused or oversize file is an error and nothing
      stays on disk. */
  function Admit(originalName: string, mimetype: string, size: nat, now: nat): (r: Option<string>)
    ensures r.Some? <==> TypeMatch(ToLower(ExtName(originalName))) && TypeMatch(mimetype)
                         && size <= MaxFileSize
    ensures r.Some? ==> r.value == StoredName(now, originalName) && originalName != ""
  {
    if FileFilter(originalName, mimetype) && size <= MaxFileSize then
      AcceptedHasExtension(originalName, mimetype);
      Some(StoredName(now, originalName))
    else None
  }

  /** `upload.single("file")` with the disk storage of lines 12-19: an admitted file is
      written to the upload directory under its stored name, which is handed on to the
      handler; a refused or oversize file is an error (Express answers 500) and nothing
      stays on disk. */
  method Receive(db: Db, originalName: string, mimetype: string, size: nat, now: nat)
    returns (code: int, stored: Option<string>)
    requires db.Valid()
    modifies db`blobs
    ensures db.Valid()
    ensures stored == Admit(originalName, mimetype, size, now)
    ensures stored.None? ==> code == ServerError && db.Model() == old(db.Model())
    ensures stored.Some? ==> code == OK && db.Model() == old(db.Model()).(blobs := old(db.blobs) + {stored.value})
  {
    stored := Admit(originalName, mimetype, size, now);
    if stored.None? {
      return ServerError, stored;
    }
    db.blobs := db.blobs + {stored.value};
    code := OK;
  }
}

=== FILE: user_dashboard.dfy ===
/** frontend/src/pages/UserDashboard.jsx: the profile form. Loading fills the form from the
    user's document; saving sends the form back with the skills text cut into a list. */
module UserDashboard {
  import opened Common
  import opened Text
  import opened Store
  import opened AuthController

  /** The user document as the page receives it; a field the document lacks is absent. */
  datatype UserData = UserData(name: string, profilePic: Option<string>, bio: Option<string>,
                               skills: Option<seq<string>>)

  /** The form's fields, all text. */
  datatype ProfileForm = ProfileForm(name: string, profilePic: string, bio: string, skills: string)

  /** The user's document as the server sends it: every field present. */
  function DataOf(u: User): UserData
  {
    UserData(u.name, Some(u.profilePic), Some(u.bio), Some(u.skills))
  }

  /** `v || ""` on an optional text. */
  function OrEmpty(v: Option<string>): (r: string)
    ensures v.None? ==> r == ""
    ensures v.Some? ==> r == v.value
  {
    if v.Some? then v.value else ""
  }

  /** Line 46: the skills joined with ", ", or "" when the document has none. */
  function SkillsField(skills: Option<seq<string>>): (r: string)
    ensures skills.None? || skills.value == [] ==> r == ""
    ensures skills.Some? && |skills.value| == 1 ==> r == skills.value[0]
  {
    if skills.Some? then Join(skills.value, ", ") else ""
  }

  /** Lines 42-47: the form filled from the document; a missing picture or bio is "". */
  function FormOf(d: UserData): (f: ProfileForm)
    ensures f.name == d.name && f.skills == SkillsField(d.skills)
    ensures f.profilePic == OrEmpty(d.profilePic) && f.bio == OrEmpty(d.bio)
  {
    ProfileForm(d.name, OrEmpty(d.profilePic), OrEmpty(d.bio), SkillsField(d.skills))
  }

  function TrimAll(pieces: seq<string>): (r: seq<string>)
    ensures |r| == |pieces| && forall i :: 0 <= i < |r| ==> r[i] == Trim(pieces[i])
  {
    seq(|pieces|, i requires 0 <= i < |pieces| => Trim(pieces[i]))
  }

  /** Line 70: the skills text cut at every ',' and each piece trimmed. There is always at
      least one piece, and none holds a ','. */
  function SubmittedSkills(field: string): (r: seq<string>)
    ensures |r| == |Split(field, ',')| >= 1
    ensures forall i :: 0 <= i < |r| ==> r[i] == Trim(Split(field, ',')[i]) && ',' !in r[i]
  {
    var r := TrimAll(Split(field, ','));
    forall i | 0 <= i < |r|
      ensures ',' !in r[i]
    {
      var p := Split(field, ',')[i];
      assert r[i] == Trim(p);
      TrimInside(p);
    }
    r
  }

  /** Trimming keeps a part of the text, so it adds no character. */
  lemma TrimInside(s: string)
    ensures forall c :: c in Trim(s) ==> c in s
  {
    var a := TrimStart(s);
    forall c | c in TrimEnd(a)
      ensures c in s
    {
      assert c in a;
    }
  }

  /** An empty skills field is sent as one empty skill, not as no skills. */
  lemma EmptyFieldGivesBlankSkill()
    ensures SubmittedSkills("") == [""]
  {
    SplitNoSeparator("", ',');
    TrimmedEmptyIffBlank("");
  }

  /** Every text but the first, with a space in front. */
  function Spaced(qs: seq<string>): (r: seq<string>)
    ensures |r| == |qs| && forall i :: 0 <= i < |qs| ==> r[i] == " " + qs[i]
  {
    seq(|qs|, i requires 0 <= i < |qs| => " " + qs[i])
  }

  /** Spacing a list spaces its head and then its tail. */
  lemma SpacedCons(qs: seq<string>)
    requires qs != []
    ensures Spaced(qs) == [" " + qs[0]] + Spaced(qs[1..])
  {
  }

  /** Joining with ", " is joining with "," after putting a space before every part but the
      first. */
  lemma {:induction false} JoinCommaSpace(first: string, qs: seq<string>)
    ensures Join([first] + qs, ", ") == Join([first] + Spaced(qs), ",")
    decreases |qs|
  {
    JoinCons(first, qs, ", ");
    JoinCons(first, Spaced(qs), ",");
    if qs != [] {
      JoinCommaSpace(qs[0], qs[1..]);
      assert [qs[0]] + qs[1..] == qs;
      SpacedCons(qs);
      JoinCons(" " + qs[0], Spaced(qs[1..]), ",");
      JoinCons(qs[0], Spaced(qs[1..]), ",");
    }
  }

  /** A skill that trims to itself: no white space at either end. */
  predicate Tidy(skill: string)
  {
    ',' !in skill && Trim(skill) == skill
  }

  /** Trimming the spaced parts of tidy skills gives the skills back. */
  lemma TrimSpaced(first: string, qs: seq<string>)
    requires Tidy(first) && forall i :: 0 <= i < |qs| ==> Tidy(qs[i])
    ensures TrimAll([first] + Spaced(qs)) == [first] + qs
  {
    var parts, want := [first] + Spaced(qs), [first] + qs;
    var r := TrimAll(parts);
    forall i | 0 <= i < |parts|
      ensures r[i] == want[i]
    {
      TrimSpacedAt(first, qs, i);
    }
    assert r == want;
  }

  /** Part `i` trims to skill `i`: the first part is the first skill, every later part is
      a skill with a space in front. */
  lemma TrimSpacedAt(first: string, qs: seq<string>, i: nat)
    requires i <= |qs|
    requires i == 0 ==> Trim(first) == first
    requires i > 0 ==> Trim(qs[i - 1]) == qs[i - 1]
    ensures Trim(([first] + Spaced(qs))[i]) == ([first] + qs)[i]
  {
    if i == 0 {
      assert ([first] + Spaced(qs))[0] == first == ([first] + qs)[0];
    } else {
      SpacedAt(first, qs, i);
      TrimSpacedSkill(qs[i - 1]);
      assert ([first] + qs)[i] == qs[i - 1];
    }
  }

  /** Part `i` after the first is skill `i - 1` with a space in front. */
  lemma SpacedAt(first: string, qs: seq<string>, i: nat)
    requires 0 < i <= |qs|
    ensures ([first] + Spaced(qs))[i] == " " + qs[i - 1]
  {
  }

  /** Trimming a tidy skill with a space in front gives the skill back. */
  lemma TrimSpacedSkill(q: string)
    requires Trim(q) == q
    ensures Trim(" " + q) == q
  {
    assert " " + q == [' '] + q;
    TrimSkipsLeadingSpace(' ', q);
  }

  /** No part of comma-free skills, spaced for joining, holds a ','. */
  lemma SpacedWithoutComma(first: string, qs: seq<string>)
    requires ',' !in first && forall i :: 0 <= i < |qs| ==> ',' !in qs[i]
    ensures forall i :: 0 <= i < |[first] + Spaced(qs)| ==> ',' !in ([first] + Spaced(qs))[i]
  {
    var parts := [first] + Spaced(qs);
    forall i | 0 <= i < |parts|
      ensures ',' !in parts[i]
    {
      if i > 0 {
        assert parts[i] == " " + qs[i - 1];
      }
    }
  }

  /** A non-empty list of tidy skills without commas comes back unchanged from the form:
      joined with ", " on loading, split at ',' and trimmed on saving. */
  lemma SkillsRoundTrip(skills: seq<string>)
    requires |skills| >= 1
    requires forall i :: 0 <= i < |skills| ==> Tidy(skills[i])
    ensures SubmittedSkills(SkillsField(Some(skills))) == skills
  {
    var first, qs := skills[0], skills[1..];
    assert skills == [first] + qs;
    var parts := [first] + Spaced(qs);
    JoinCommaSpace(first, qs);
    assert SkillsField(Some(skills)) == Join(parts, [',']);
    SpacedWithoutComma(first, qs);
    SplitJoin(parts, ',');
    TrimSpaced(first, qs);
  }

  /** What saving the form asks of the profile update: every text field as it stands and
      the skills cut into a list. */
  function SaveProfile(u: User, f: ProfileForm): (r: User)
    ensures r.email == u.email && r.password == u.password && r.role == u.role && r.team == u.team
    ensures r.skills == SubmittedSkills(f.skills)
    ensures f.name != "" ==> r.name == f.name
    ensures f.name == "" ==> r.name == u.name
  {
    ApplyProfile(u, Some(f.name), Some(f.profilePic), Some(f.bio), Some(SubmittedSkills(f.skills)))
  }

  /** Opening the form and saving it untouched leaves a user with a non-empty list of tidy
      skills as they were. */
  lemma UntouchedFormKeepsUser(u: User)
    requires |u.skills| >= 1 && forall i :: 0 <= i < |u.skills| ==> Tidy(u.skills[i])
    ensures SaveProfile(u, FormOf(DataOf(u))) == u
  {
    SkillsRoundTrip(u.skills);
  }

  /** A user without skills who saves the form untouched ends up with one empty skill. */
  lemma UntouchedFormAddsBlankSkill(u: User)
    requires u.skills == []
    ensures SaveProfile(u, FormOf(DataOf(u))).skills == [""]
  {
    EmptyFieldGivesBlankSkill();
  }
}
